=== FILE: README.md ===
# Campus parking reservations: page logic and lot seeding

This project models two parts of a campus parking system in Dafny and proves
properties about them.

- **The reservations page** (`client/src/pages/ReservationsPage.js`):
  - how a reservation's display status is derived from its stored status and the current time;
  - which create requests the page lets through to the reservation service;
  - how the page filters, sorts, groups and pages the lists it shows;
  - which buttons each card offers;
  - how spot ids of the form `lotId-spotNum` are read;
  - the `YYYY-MM-DDTHH:mm` minimum of the start-time input.
- **The seeding script** (`client/src/init.js`):
  - `parseOrZero`;
  - the lot prefix taken from a location text;
  - the lot record built from each spreadsheet row;
  - the `PREFIX-NNN` spot documents and the lot's list of spot references.

Time is integer milliseconds. A `Date` built from unparseable text is the
separate value `InvalidDate`. Every comparison with it is false, as with
JavaScript's NaN time value. Strings are `seq<char>`. The database's document
ids are natural numbers handed out in save order. The random `lotId` of each
row is a parameter.

Files and modules:

| file | modules | models |
|---|---|---|
| `text.dfy` | `Optional`, `Text` | absent values, truthiness, fallbacks through logical or; `String(n)`, `padStart`, `split`/`join`, `substring` |
| `status.dfy` | `Instants`, `ReservationStatus` | `Date` comparison; `getReservationStatus` |
| `create.dfy` | `CreateRequest` | the checks in `handleCreateReservation` |
| `listing.dfy` | `Listing` | `getAllReservations`, `renderReservationGroup`, `loadMoreReservations`, the card's badge, payment block and buttons |
| `spotids.dfy` | `SpotIds`, `DateInput` | the spot-id parse of the first effect, event-spot badges; `formatLocalDateTimeInput` |
| `seeding.dfy` | `IntParse`, `LotPrefix`, `Seeding` | `parseOrZero`, the prefix regular expression, the per-row loop of `main` |
| `roundtrip.dfy` | `SpotIdRoundTrip` | generated spot ids read back by the page |

Where the code departs from the behaviour the system is meant to have, the
model follows the code:

- **Approved is never promoted.** An approved reservation is meant to be
  shown as active inside its window and as completed after it.
  `getReservationStatus` returns `approved` verbatim at every instant
  (`ReservationStatus.ApprovedIsTimeless`).
- **The active window is closed.** Reservation windows are meant to be
  half-open, `[start, end)`. The page shows `active` at the end instant as
  well (`now <= endTime`), so its window is `[start, end]`
  (`ReservationStatus.ActiveWindowClosed`).
- **Six labels, not five.** The function can return six labels: `pending`,
  `active`, `approved`, `completed`, `cancelled` and `rejected`. The page
  renders them in five groups, with cancelled and rejected sharing one.
- **The pending test adds nothing.** The separate
  `status === 'pending' && startTime > now` test has no effect. A stored
  `pending` is read by time exactly like any unrecognised status
  (`ReservationStatus.PendingReadByTime`).
- **Invalid dates pass both window checks.** A date the browser cannot parse
  compares false, so it is not stopped by either early return. It is stopped
  only when `toISOString` throws inside the outer `try`. In both cases the
  service is never called (`CreateRequest.InvalidDateNeverSubmitted`).

## Model

| member | source | states |
|---|---|---|
| `Instants.InvalidComparesFalse` | client/src/pages/ReservationsPage.js:273-275 | with an invalid `Date` on either side, `<`, `<=`, `>` and `>=` are all false |
| `ReservationStatus.Derive` | client/src/pages/ReservationsPage.js:272-296 | the result is `cancelled`/`rejected`/`approved` exactly when the stored status is; for any other stored status it equals the time-only reference reading `ByTime` (pending before start, active from start to end inclusive, completed otherwise) |
| `ReservationStatus.LabelsDistinct` | client/src/pages/ReservationsPage.js:277-295 | the six display labels are pairwise distinct strings |
| `ReservationStatus.ApprovedIsTimeless` | client/src/pages/ReservationsPage.js:281-282 | a stored `approved` is shown as approved at every time, whatever start and end are |
| `ReservationStatus.PendingReadByTime` | client/src/pages/ReservationsPage.js:283-289 | a stored `pending` derives the same status as any status that is not cancelled, rejected or approved |
| `ReservationStatus.ActiveWindowClosed` | client/src/pages/ReservationsPage.js:287-295 | the reservation is active at its start and at its end instant, pending one ms before start, completed one ms after end |
| `ReservationStatus.TimeOnlyMovesForward` | client/src/pages/ReservationsPage.js:283-295 | for a status read by time, later `now` never moves the result back (pending, then active, then completed) |
| `ReservationStatus.PendingMeansNotStarted` | client/src/pages/ReservationsPage.js:283-289 | a derived `pending` implies a valid start strictly after now |
| `CreateRequest.Validate` | client/src/pages/ReservationsPage.js:157-195 | each early return happens exactly under its condition (missing time, start under 10 minutes ahead, end not after start); the service is called iff both times are present and valid, start >= now + 600000 and start < end, and the payload carries the form's lot, spot, building and the two instants |
| `CreateRequest.TooSoonAlwaysRefused` | client/src/pages/ReservationsPage.js:167-170 | a valid start less than ten minutes ahead is never submitted, whatever the end |
| `CreateRequest.InvalidDateNeverSubmitted` | client/src/pages/ReservationsPage.js:163-189 | an unparseable start or end never reaches the service; an unparseable start always ends in the `toISOString` exception |
| `CreateRequest.WindowBoundaries` | client/src/pages/ReservationsPage.js:167-175 | a start exactly 600000 ms ahead is accepted and one ms earlier is not; an end equal to the start is refused |
| `Listing.SpotDisplay` | client/src/pages/ReservationsPage.js:309-311 | an empty spot list gives `Multiple spots`; otherwise the text is the count of the spots in decimal digits with no leading zero, followed by ` spots` |
| `Listing.TagRegular` | client/src/pages/ReservationsPage.js:301-304 | each regular reservation is kept in place and tagged as not an event |
| `Listing.TagEvent` | client/src/pages/ReservationsPage.js:306-312 | each event reservation is kept in place, tagged as an event, with `N spots` or `Multiple spots` as its summary |
| `Listing.FilterByTab` | client/src/pages/ReservationsPage.js:314-322 | `all` gives the regular then the event reservations with the matching tags; `regular` and `event` give only that kind; any other tab gives an empty list |
| `Listing.InsertNewestFirst` | client/src/pages/ReservationsPage.js:325 | inserting one item into a newest-first list keeps it newest first and adds exactly that item |
| `Listing.SortNewestFirst` | client/src/pages/ReservationsPage.js:325 | the sorted list is a permutation of its input ordered by `createdAt`, newest first |
| `Listing.SortIsStable` | client/src/pages/ReservationsPage.js:325 | items with the same `createdAt` keep their relative order (JavaScript's sort is stable) |
| `Listing.Where` | client/src/pages/ReservationsPage.js:328-335 | a group holds exactly the items of the list whose display status passes its filter |
| `Listing.InGroupExactlyOne` | client/src/pages/ReservationsPage.js:328-335 | every display status passes exactly one of the five group filters |
| `Listing.GetAllReservations` | client/src/pages/ReservationsPage.js:299-346 | `all` is the filtered list sorted newest first, and `hasReservations` holds iff it is non-empty |
| `Listing.GroupsCoverList` | client/src/pages/ReservationsPage.js:327-345 | when all five filters judge the list at the same instant, the five groups together hold the sorted list exactly, as multisets: nothing lost, nothing duplicated |
| `Listing.GroupMembership` | client/src/pages/ReservationsPage.js:328-335 | an item is in a group iff it is in the list and its display status maps to that group |
| `Listing.GroupsKeepOrder` | client/src/pages/ReservationsPage.js:325-335 | each group is a subsequence of the sorted list and is itself newest first |
| `Listing.WhereAt` | client/src/pages/ReservationsPage.js:273-335 | with item `i` judged at clock reading `i`, an item is in the filtered list iff it sits at some position whose status at that position's reading passes the filter |
| `Listing.GroupAtReads` | client/src/pages/ReservationsPage.js:273-335 | with every item of every filter judged at its own clock reading (one per item and filter; the wall clock may go back, so nothing is assumed about their order), an item is in a group iff it sits at a position of the list whose status at that filter's reading for the position passes the filter |
| `Listing.SecondReadingChangesNothing` | client/src/pages/ReservationsPage.js:326-335 | the approved and closed filters as written, with their second `getReservationStatus` call reading the clock at any other instant, keep exactly the items the first reading alone would keep |
| `Listing.OneInstantGrouping` | client/src/pages/ReservationsPage.js:273-345 | if every reading of every filter is the same instant, that is a run of the clock that never goes back, and the grouping is the one `GetAllReservations` gives for it |
| `Listing.ClockSkewDuplicates` | client/src/pages/ReservationsPage.js:273-331 | with reads 20, 20, 20, 21, 21, which never go back, a pending reservation from 10 to 20 ms is in both the active and the completed group |
| `Listing.ClockSkewLoses` | client/src/pages/ReservationsPage.js:273-335 | with reads 9, 10, 10, 10, 10, which never go back, the same reservation is in the list but in none of the five groups |
| `Listing.ClockTicksWithinFilter` | client/src/pages/ReservationsPage.js:273-331 | with a clock that never goes back ticking from 20 to 21 ms between the two items of the active filter, two copies of that reservation give one active and two completed entries |
| `Listing.RenderGroup` | client/src/pages/ReservationsPage.js:349-386 | an empty group renders nothing; otherwise it shows its size and its first `min(visibleCount, n)` items; `Load More` appears iff items are hidden, reporting `n - shown` remaining |
| `Listing.LoadMore` | client/src/pages/ReservationsPage.js:250-256 | one press raises the visible count (the exact step is stated by `Listing.VisibleAfterPresses`) |
| `Listing.VisibleAfterPresses` | client/src/pages/ReservationsPage.js:253 | after `k` presses the visible count is `5 + 5k`: each press adds exactly 5 to the initial 5 |
| `Listing.LoadMoreStopsWhenAllShown` | client/src/pages/ReservationsPage.js:351-381 | the button disappears after exactly `ceil((n - 5) / 5)` presses, and then every item is shown |
| `Listing.CardActions` | client/src/pages/ReservationsPage.js:551-573 | `View on Map` is always first; `Modify` iff pending and not an event; `Cancel` iff pending |
| `Listing.CancelOnlyBeforeStart` | client/src/pages/ReservationsPage.js:555-570 | `Cancel` is offered only when the stored status is not cancelled, rejected or approved and the valid start is still ahead |
| `Listing.PaymentBlock` | client/src/pages/ReservationsPage.js:473-515 | `Paid` shows iff the payment status is `paid`; `Pay Now` shows iff it is `unpaid`; never both |
| `Listing.BadgeText` | client/src/pages/ReservationsPage.js:402-404 | the status badge is the label with its first letter upper-cased and the rest unchanged |
| `SpotIds.BeforeDash` | client/src/pages/ReservationsPage.js:69 | the first piece of `split('-')` contains no dash, is a prefix of the id, and is followed by a dash when the id has one |
| `SpotIds.ParseSpotInfo` | client/src/pages/ReservationsPage.js:67-76 | a dashed `spotId` gives the lot as the text before the first dash and keeps the spot id whole; otherwise the lot is the lot's `_id` or empty, and the spot is `_id`, else `spotId`, else empty |
| `SpotIds.ParseRecoversLot` | client/src/pages/ReservationsPage.js:67-71 | for a dash-free `lot`, the id `lot-rest` parses to exactly `lot` and the whole id |
| `SpotIds.FormTarget` | client/src/pages/ReservationsPage.js:41-62 | the form is filled only when spot info or a route parameter is present; a route parameter alone acts as `{ spotId }` |
| `SpotIds.BadgeOfId` | client/src/pages/ReservationsPage.js:419 | the badge is the second dash piece when present and non-empty, else the first 8 characters |
| `SpotIds.Badge` | client/src/pages/ReservationsPage.js:418-422 | a string spot and a document with a `spotId` use that id's badge; a document without one shows `Spot idx+1` |
| `SpotIds.SpotBadges` | client/src/pages/ReservationsPage.js:416-424 | at most five badges, one per spot, in list order |
| `SpotIds.MoreBadge` | client/src/pages/ReservationsPage.js:425-429 | `+N more` appears iff there are more than five spots, with N the number not shown |
| `SpotIds.BadgesAccountForAllSpots` | client/src/pages/ReservationsPage.js:414-429 | the badges shown plus the `+N more` count equal the number of spots |
| `DateInput.Pad` | client/src/pages/ReservationsPage.js:141 | for values below 100 the text is two digits, and it always reads back as the value |
| `DateInput.PadIsPadStart` | client/src/pages/ReservationsPage.js:141 | `Pad` equals the decimal text left-padded with `0` to width 2 |
| `DateInput.PadInjective` | client/src/pages/ReservationsPage.js:141 | two values below 100 with the same padded text are equal |
| `DateInput.FieldValue` | client/src/pages/ReservationsPage.js:145-151 | a two-character field of the output reads back as the number it was written from |
| `DateInput.FormatLocalDateTimeInput` | client/src/pages/ReservationsPage.js:139-153 | the output is the year text, then `-MM-DDTHH:mm` with each field zero-padded to two digits, at fixed positions after the year |
| `DateInput.FormatInjective` | client/src/pages/ReservationsPage.js:139-153 | in the same year, different minutes format to different texts |
| `Text.Decimal` | client/src/pages/ReservationsPage.js:310 | the decimal text of a natural number has at least one digit, only digits, and a leading `0` only for 0 |
| `Text.DecimalValue` | client/src/pages/ReservationsPage.js:310 | the decimal text reads back as the number it renders |
| `Text.IntText` | client/src/init.js:98 | `String(n)` of an integer is digits for n >= 0, and a `-` followed by digits for n < 0 |
| `IntParse.ReadsIntText` | client/src/init.js:15-18 | `String(n)` followed by text that does not start with a digit reads back as n |
| `IntParse.IntTextInjective` | client/src/init.js:98 | two integers have the same `String` text iff they are equal |
| `Text.Split` | client/src/pages/ReservationsPage.js:69 | `split` always gives at least one piece (what the pieces are is stated by `Text.SplitJoin` and `Text.JoinSplit`) |
| `Text.PadStart` | client/src/init.js:98 | the result is as long as `s` or `width`, whichever is more, ends with `s`, and is filled with the fill character before it |
| `Text.Prefix` | client/src/pages/ReservationsPage.js:419 | `substring(0, n)` gives the prefix of the text of length `n`, or the whole text when it is shorter |
| `Text.SplitJoin` | client/src/pages/ReservationsPage.js:69 | joining the pieces of `split` gives back the string, and no piece contains the separator |
| `Text.ZeroPaddedValue` | client/src/init.js:98 | zero-padding a decimal text keeps its value |
| `IntParse.ParseOrZero` | client/src/init.js:15-18 | the result is non-negative unless the trimmed text starts with `-` (its exact value is stated by `IntParse.ParseOrZeroReadsDigits`, `IntParse.ParseOrZeroSignWithoutDigits` and `IntParse.ParseOrZeroWithoutDigits`) |
| `IntParse.TrimStart` | client/src/init.js:16 | the text left after trimming is no longer than the input and does not start with white space |
| `IntParse.TrimStartDropsSpace` | client/src/init.js:16 | `parseInt` skips only leading white space and keeps the rest of the text |
| `IntParse.ParseOrZeroReadsInteger` | client/src/init.js:15-18 | any integer written as `String(n)`, after any white space and before any non-digit text, is read back exactly; a corollary of `IntParse.ParseOrZeroReadsDigits` |
| `IntParse.ParseOrZeroReadsDigits` | client/src/init.js:15-18 | after any white space, an optional `+` or `-` and any non-empty run of digits (leading zeros allowed), stopping at the first non-digit, the result is the run's value, negated for `-` |
| `IntParse.ParseOrZeroSignWithoutDigits` | client/src/init.js:15-18 | a `+` or `-` after any white space with no digit after it reads as 0 |
| `IntParse.ParseOrZeroExamples` | client/src/init.js:15-18 | `"007"` reads as 7 and `"-007"` as -7 |
| `IntParse.ParseOrZeroSpaceExample` | client/src/init.js:15-18 | `" +5"` reads as 5 |
| `IntParse.ParseOrZeroSignExamples` | client/src/init.js:15-18 | `"-"` and `"+x"` read as 0 |
| `IntParse.ParseOrZeroPlusSign` | client/src/init.js:15-18 | a leading `+` before the digits of a natural number is accepted; a corollary of `IntParse.ParseOrZeroReadsDigits` |
| `IntParse.ParseOrZeroWithoutDigits` | client/src/init.js:15-18 | text with no sign or digit after the white space, an empty cell included, reads as 0 |
| `LotPrefix.Tokens` | client/src/init.js:89 | every match of the regular expression is a non-empty run of ASCII letters and digits (which runs, and in what order, is stated by `LotPrefix.TokensAreMatches`) |
| `LotPrefix.TokensAreMatches` | client/src/init.js:89 | for any location, the matches are listed in order of position and are exactly the places where `\b[A-Za-z0-9]+\b` matches: letters and digits only, with no letter, digit or `_` just before or after, and every such place listed |
| `LotPrefix.PrefixIsSecondMatch` | client/src/init.js:89-93 | for any location, the prefix is the text of the second match by position when there are two or more, and `LOT` otherwise |
| `LotPrefix.PrefixOf` | client/src/init.js:89-93 | the prefix is a non-empty alphanumeric text and never contains `-` |
| `LotPrefix.TokensOfSpacedWords` | client/src/init.js:89 | a location of alphanumeric words separated by spaces matches exactly those words |
| `LotPrefix.PrefixOfSpacedWords` | client/src/init.js:89-93 | with at least two words the prefix is the second word |
| `LotPrefix.PrefixOfOneWord` | client/src/init.js:90-93 | with a single word the prefix is `LOT` |
| `Seeding.LotName` | client/src/init.js:44 | the name is the `Location` cell, or `NA` when that is empty |
| `Seeding.NewLot` | client/src/init.js:44-82 | the new lot has the row's name (`NA` if empty), `Main Campus West`, base rate 0, no spots, and capacity and each of the eleven named counts read with `parseOrZero` from its own column |
| `Seeding.BlankRowGivesDefaults` | client/src/init.js:44-57 | a row of empty cells gives the name `NA`, capacity 0 and every count 0 |
| `Seeding.SpotNumber` | client/src/init.js:98 | the spot number text has at least three digits, no dash, and reads back as `i` |
| `Seeding.SpotLabelParts` | client/src/init.js:98 | a spot id `SpotLabel(prefix, i)` is the prefix, a dash, then at least three digits that read back as `i` |
| `Seeding.NewSpot` | client/src/init.js:97-104 | the spot document has the spot id, points at the lot, and is a regular spot on level 1, neither occupied nor reserved |
| `Seeding.SpotLabelInjective` | client/src/init.js:98 | under one prefix, two spot numbers have the same label iff they are equal |
| `Seeding.GenerateSpots` | client/src/init.js:95-105 | exactly `max(0, totalSpaces)` documents, the k-th being spot `k+1`: `PREFIX-NNN`, type `regular`, not occupied, not reserved, level 1, pointing at the lot; their ids are pairwise distinct |
| `Seeding.InsertMany` | client/src/init.js:108 | the stored spots keep document order and get consecutive fresh ids |
| `Seeding.Ids` | client/src/init.js:111 | the id list has one entry per stored spot, in order |
| `Seeding.SeedRow` | client/src/init.js:44-114 | the lot gets the row's name, `Main Campus West`, base rate 0, the parsed capacity and the eleven counts; its `spots` list is exactly the inserted spot ids in order, one per spot number 1..max(0, capacity) |
| `Seeding.Seed` | client/src/init.js:35-120 | exactly the first `min(87, rows)` rows are imported, each giving the lot `SeedRow` describes, with the lots' database document ids increasing in save order |
| `SpotIdRoundTrip.SplitSpotLabel` | client/src/init.js:98 | splitting a generated id at `-` gives exactly the prefix and the zero-padded number |
| `SpotIdRoundTrip.GeneratedIdReadBack` | client/src/pages/ReservationsPage.js:67-71 | the page parses a generated id to the prefix as lot and the whole id as spot; its event badge is the zero-padded number, which reads back as the spot number |
| `SpotIdRoundTrip.SeededSpotsReadBack` | client/src/init.js:96-113 | every spot a seeded lot lists has an id whose parsed lot is the lot's prefix and whose badge is the spot's number |

## Findings

| source | as written | input that shows it | evidently intended | confidence | as-written member | corrected member |
|---|---|---|---|---|---|---|
| client/src/pages/ReservationsPage.js:273-335 | each group filter calls `getReservationStatus` for every item, and each call reads `new Date()` again | a pending reservation from 10 to 20 ms with the filters reading 20, 20, 20, 21, 21 (in two groups) or 9, 10, 10, 10, 10 (in none) | every listed reservation is in exactly one group, all judged at one instant | low: the window is the few ms the filters take; not executed | `Listing.GroupAtReads` (`Listing.ClockSkewDuplicates`, `Listing.ClockSkewLoses`, `Listing.ClockTicksWithinFilter`) | `Listing.GetAllReservations` (`Listing.GroupsCoverList`) |

## Left out

- Rendering, hooks, state setters, navigation, `alert`/`confirm` and the 500 ms `setTimeout` before a load-more: these are UI plumbing. The visible count is a value to which `LoadMore` adds 5.
- `ReservationService`, `EventReservationService`, `ApiService.payment`, the Stripe redirect and `GoogleMapService`: network calls whose code is not part of this model. `fetchReservations`, `handleCancelReservation`, `handleViewDirections` and the payment-confirmation effect only call these, so they are left out with them.
- The price `(durationHours * 2.50).toFixed(2)` and `totalPrice.toFixed(2)`: floating point. The payload modelled by `CreateRequest.Validate` has no price.
- `new Date(text)` parsing, `toISOString`, `toLocaleDateString` and the local-time getters: the parse is the parameter `parse`. The formatter takes the date fields as integers. `formatDateForDisplay` and the default start and end times of the first effect are left out.
- `createdAt` is an integer timestamp. An unparseable `createdAt` would make the comparator return NaN, and the resulting order depends on the engine.
- The card header (`Reservation #…`, `Event: …`), the regular card's spot and lot texts, the event reason and admin notes: display text with no logic beyond `||` fallbacks.
- The building id and the start and end times that the first effect copies into the form: `SpotIds.FormTarget` models only the lot and spot it fills in.
- SpotIds.ParseSpotInfo: the `typeof info.spotId === 'string'` test is folded into the type. A spot id is always a string here.
- The Mongo connection, `save`, `insertMany`, reading the XLSX file, `crypto.randomBytes` and `Date.now()`: I/O and nondeterminism. Document ids are fresh numbers and `lotId` is a parameter. The error path of `main` (log and disconnect) is not modelled.
- Spreadsheet cells are modelled as their text. A numeric cell reaches `parseInt` as `String(value)`. A non-string `Location` cell, on which `match` would throw, is not modelled.
- IntParse.ParseOrZero: does not model the loss of precision of `parseInt` beyond 2^53, because integers are unbounded here.
- Conflict detection, the approve/reject/cancel/markPaid transitions and `isReserved` toggling: they run on the server, and no code for them is part of this model.
- `client/src/ParkingLot.js` and `client/src/ParkingSpot.js` are schema declarations. They only fix the shapes of `Seeding.LotRecord` and `Seeding.SpotRecord`.
- Listing.GroupsCoverList: holds only when all five filters read the clock at one instant. The page reads `new Date()` afresh in every status computation, and an item whose start or end falls between two filters' reads can be in two groups or in none (`Listing.ClockSkewDuplicates`, `Listing.ClockSkewLoses`).
- Listing.GetAllReservations: judges every item at the single instant `now`, while the page reads the clock in every `getReservationStatus` call; the per-call reads are modelled separately by `Listing.GroupAtReads`.
- Listing.GroupAtReads: gives each item one reading per filter. The approved filter calls `getReservationStatus` a second time only on a stored `approved`, and the closed filter calls it a second time for every item whose status is not `cancelled`. That later reading cannot change either verdict, as `Listing.SecondReadingChangesNothing` proves, so it gets no reading of its own.
- Listing.LoadMore: its contract states only that the count grows, because the exact step of 5 written there would restate the body; `Listing.VisibleAfterPresses` states the step over any number of presses.

=== FILE: create.dfy ===
/** The checks `handleCreateReservation` runs on the form before it calls
    the reservation service. Parsing of the form's date-time text is the
    browser's `new Date(text)`, given here as the parameter `parse`. */
module CreateRequest {
  import opened Optional
  import opened Instants

  /** Ten minutes, in milliseconds: the least lead time before a start. */
  const MinLeadMs: int := 10 * 60000

  /** The form state (`newReservation`). */
  datatype Form = Form(lotId: string, spotId: string, building: Option<string>,
                       startTime: string, endTime: string)

  /** The payload handed to `createReservation` (price left out). */
  datatype Payload = Payload(lotId: string, spotId: string, building: Option<string>,
                             startMs: int, endMs: int)

  /** Where the handler stops: one of its early returns, the exception
      that `toISOString` raises on an invalid date (caught by the outer
      `try`), or the call to the service. */
  datatype Outcome =
    | MissingTimes
    | TooSoon
    | EndNotAfterStart
    | Unrepresentable
    | Submit(payload: Payload)

  /** The window rule the page enforces, in one place. */
  predicate AcceptableWindow(startMs: int, endMs: int, now: int) {
    startMs >= now + MinLeadMs && startMs < endMs
  }

  function Validate(form: Form, now: int, parse: string -> Instant): (o: Outcome)
    ensures o == MissingTimes <==> form.startTime == "" || form.endTime == ""
    ensures o == TooSoon <==>
      form.startTime != "" && form.endTime != "" &&
      parse(form.startTime).At? && parse(form.startTime).ms < now + MinLeadMs
    ensures o == EndNotAfterStart <==>
      form.startTime != "" && form.endTime != "" &&
      parse(form.startTime).At? && parse(form.endTime).At? &&
      parse(form.startTime).ms >= now + MinLeadMs &&
      parse(form.startTime).ms >= parse(form.endTime).ms
    ensures o.Submit? <==>
      form.startTime != "" && form.endTime != "" &&
      parse(form.startTime).At? && parse(form.endTime).At? &&
      AcceptableWindow(parse(form.startTime).ms, parse(form.endTime).ms, now)
    ensures o.Submit? ==>
      o.payload == Payload(form.lotId, form.spotId, form.building,
                           parse(form.startTime).ms, parse(form.endTime).ms)
  {
    if form.startTime == "" || form.endTime == "" then MissingTimes
    else
      var start := parse(form.startTime);
      var end := parse(form.endTime);
      if Before(start, At(now + MinLeadMs)) then TooSoon
      else if start.At? && end.At? && start.ms >= end.ms then EndNotAfterStart
      else if start.InvalidDate? || end.InvalidDate? then Unrepresentable
      else Submit(Payload(form.lotId, form.spotId, form.building, start.ms, end.ms))
  }

  /** A start less than ten minutes ahead is refused whatever the end is. */
  lemma TooSoonAlwaysRefused(form: Form, now: int, parse: string -> Instant)
    requires form.startTime != "" && form.endTime != ""
    requires parse(form.startTime).At? && parse(form.startTime).ms < now + MinLeadMs
    ensures !Validate(form, now, parse).Submit?
  {
  }

  /** A date the browser cannot parse slips past both comparisons (they are
      false on NaN) and is only stopped by the conversion to ISO text (unless
      a valid start is already too soon): the service is never called. */
  lemma InvalidDateNeverSubmitted(form: Form, now: int, parse: string -> Instant)
    requires form.startTime != "" && form.endTime != ""
    requires parse(form.startTime).InvalidDate? || parse(form.endTime).InvalidDate?
    ensures parse(form.startTime).InvalidDate? ==> Validate(form, now, parse) == Unrepresentable
    ensures Validate(form, now, parse) == Unrepresentable || Validate(form, now, parse) == TooSoon
  {
  }

  /** The exact boundaries: a start exactly ten minutes ahead is accepted,
      one millisecond earlier is not; an end equal to the start is refused. */
  lemma WindowBoundaries(now: int)
    ensures AcceptableWindow(now + MinLeadMs, now + MinLeadMs + 1, now)
    ensures !AcceptableWindow(now + MinLeadMs - 1, now + MinLeadMs + 1, now)
    ensures !AcceptableWindow(now + MinLeadMs, now + MinLeadMs, now)
  {
  }
}

=== FILE: listing.dfy ===
/** How the reservations page shapes the lists it shows: the tab filter,
    the newest-first sort, the grouping by display status, paging of each
    group, and the buttons each card offers (`getAllReservations`,
    `renderReservationGroup`, `loadMoreReservations`, `renderReservationCard`). */
module Listing {
  import opened Optional
  import opened Instants
  import opened ReservationStatus
  import opened Text
  import SpotIds

  /** A reservation as the services return it; an event reservation also
      carries its spots. `createdAt` is the server's creation timestamp. */
  datatype Reservation = Reservation(
    id: string,
    status: string,
    paymentStatus: string,
    startTime: Instant,
    endTime: Instant,
    createdAt: int,
    spots: seq<SpotIds.SpotRef>)

  /** A reservation tagged with its kind; event ones also get a spot summary. */
  datatype Item = Item(res: Reservation, isEvent: bool, spotDisplay: Option<string>)

  /** `${n} spots`, or `Multiple spots` for an empty list: the decimal
      count of the event's spots followed by ` spots`. */
  function SpotDisplay(spots: seq<SpotIds.SpotRef>): (d: string)
    ensures |spots| == 0 <==> d == "Multiple spots"
    ensures |spots| > 0 ==>
      && |d| > 6 && d[|d| - 6..] == " spots"
      && AllDigits(d[..|d| - 6]) && d[0] != '0' && DigitsValue(d[..|d| - 6]) == |spots|
  {
    if |spots| > 0 then
      var n := Decimal(|spots|);
      DecimalValue(|spots|);
      assert (n + " spots")[..|n|] == n;
      assert (n + " spots")[|n|..] == " spots";
      n + " spots"
    else "Multiple spots"
  }

  function TagRegular(rs: seq<Reservation>): (items: seq<Item>)
    ensures |items| == |rs|
    ensures forall i :: 0 <= i < |rs| ==> items[i] == Item(rs[i], false, None)
  {
    seq(|rs|, i requires 0 <= i < |rs| => Item(rs[i], false, None))
  }

  function TagEvent(rs: seq<Reservation>): (items: seq<Item>)
    ensures |items| == |rs|
    ensures forall i :: 0 <= i < |rs| ==> items[i] == Item(rs[i], true, Some(SpotDisplay(rs[i].spots)))
  {
    seq(|rs|, i requires 0 <= i < |rs| => Item(rs[i], true, Some(SpotDisplay(rs[i].spots))))
  }

  /** The reservations behind a list of items. */
  function Untag(items: seq<Item>): (rs: seq<Reservation>)
    ensures |rs| == |items|
    ensures forall i :: 0 <= i < |items| ==> rs[i] == items[i].res
  {
    seq(|items|, i requires 0 <= i < |items| => items[i].res)
  }

  /** The list the active tab selects, before sorting. */
  function FilterByTab(tab: string, regular: seq<Reservation>, events: seq<Reservation>): (items: seq<Item>)
    ensures tab == "all" ==>
      Untag(items) == regular + events &&
      forall i :: 0 <= i < |items| ==> items[i].isEvent == (i >= |regular|)
    ensures tab == "regular" ==>
      Untag(items) == regular && forall i :: 0 <= i < |items| ==> !items[i].isEvent
    ensures tab == "event" ==>
      Untag(items) == events && forall i :: 0 <= i < |items| ==> items[i].isEvent
    ensures tab != "all" && tab != "regular" && tab != "event" ==> items == []
  {
    if tab == "all" then TagRegular(regular) + TagEvent(events)
    else if tab == "regular" then TagRegular(regular)
    else if tab == "event" then TagEvent(events)
    else []
  }

  // ----- Sorting by creation time, newest first -----

  function Created(x: Item): int {
    x.res.createdAt
  }

  predicate NewestFirst(s: seq<Item>) {
    forall i, j :: 0 <= i < j < |s| ==> Created(s[i]) >= Created(s[j])
  }

  /** The items created at instant `k`, in list order. Two lists that agree
      on this for every `k` order equal timestamps alike. */
  function CreatedAt(s: seq<Item>, k: int): seq<Item>
  {
    if |s| == 0 then []
    else if Created(s[0]) == k then [s[0]] + CreatedAt(s[1..], k)
    else CreatedAt(s[1..], k)
  }

  /** An item not older than everything after it can lead a newest-first list. */
  lemma ConsNewestFirst(h: Item, t: seq<Item>)
    requires NewestFirst(t)
    requires forall y :: y in t ==> Created(y) <= Created(h)
    ensures NewestFirst([h] + t)
  {
    var r := [h] + t;
    forall i, j | 0 <= i < j < |r| ensures Created(r[i]) >= Created(r[j]) {
      assert r[j] == t[j - 1];
      if i > 0 {
        assert r[i] == t[i - 1];
      }
    }
  }

  /** The head of a newest-first list is at least as new as every item. */
  lemma HeadIsNewest(s: seq<Item>)
    requires NewestFirst(s) && |s| > 0
    ensures forall y :: y in s ==> Created(y) <= Created(s[0])
  {
    forall y | y in s ensures Created(y) <= Created(s[0]) {
      var k :| 0 <= k < |s| && s[k] == y;
      if k > 0 {
        assert Created(s[0]) >= Created(s[k]);
      }
    }
  }

  /** A bound on creation times survives adding one item within it. */
  lemma BoundAfterInsert(t: seq<Item>, u: seq<Item>, x: Item, h: int)
    requires multiset(t) == multiset(u) + multiset{x}
    requires forall y :: y in u ==> Created(y) <= h
    requires Created(x) <= h
    ensures forall y :: y in t ==> Created(y) <= h
  {
    forall y | y in t ensures Created(y) <= h {
      assert y in multiset(t);
      if y != x {
        assert y in multiset(u);
      }
    }
  }

  /** Insert `x` before the first item that is not newer than it. */
  function InsertNewestFirst(x: Item, s: seq<Item>): (r: seq<Item>)
    requires NewestFirst(s)
    ensures NewestFirst(r)
    ensures multiset(r) == multiset(s) + multiset{x}
  {
    if |s| == 0 then [x]
    else if Created(s[0]) <= Created(x) then
      HeadIsNewest(s);
      ConsNewestFirst(x, s);
      [x] + s
    else
      var t := InsertNewestFirst(x, s[1..]);
      HeadIsNewest(s);
      assert forall y :: y in s[1..] ==> y in s;
      BoundAfterInsert(t, s[1..], x, Created(s[0]));
      ConsNewestFirst(s[0], t);
      assert s == [s[0]] + s[1..];
      [s[0]] + t
  }

  /** `filtered.sort((a, b) => b.createdAt - a.createdAt)`: JavaScript's
      sort is stable, so this is a stable newest-first sort. */
  function SortNewestFirst(s: seq<Item>): (r: seq<Item>)
    ensures NewestFirst(r)
    ensures multiset(r) == multiset(s)
    ensures |r| == |s|
  {
    if |s| == 0 then []
    else
      var r := InsertNewestFirst(s[0], SortNewestFirst(s[1..]));
      assert s == [s[0]] + s[1..];
      assert |r| == |multiset(r)|;
      r
  }

  lemma {:induction false} InsertKeepsTies(x: Item, s: seq<Item>, k: int)
    requires NewestFirst(s)
    ensures CreatedAt(InsertNewestFirst(x, s), k) ==
      if Created(x) == k then [x] + CreatedAt(s, k) else CreatedAt(s, k)
    decreases |s|
  {
    if |s| == 0 {
    } else if Created(s[0]) <= Created(x) {
      var r := [x] + s;
      assert r[0] == x && r[1..] == s;
    } else {
      var t := InsertNewestFirst(x, s[1..]);
      InsertKeepsTies(x, s[1..], k);
      var r := [s[0]] + t;
      assert r[0] == s[0] && r[1..] == t;
    }
  }

  /** The sort is stable: items with equal creation times keep the order
      they had in the filtered list. */
  lemma {:induction false} SortIsStable(s: seq<Item>, k: int)
    ensures CreatedAt(SortNewestFirst(s), k) == CreatedAt(s, k)
    decreases |s|
  {
    if |s| > 0 {
      SortIsStable(s[1..], k);
      InsertKeepsTies(s[0], SortNewestFirst(s[1..]), k);
    }
  }

  // ----- Grouping by display status -----

  function StatusOf(x: Item, now: int): Display {
    Derive(x.res.status, x.res.startTime, x.res.endTime, now)
  }

  /** The five groups the page renders, in display order. */
  datatype Group = ActiveGroup | PendingGroup | ApprovedGroup | CompletedGroup | ClosedGroup

  /** The filter the page applies for each group, as it writes it. */
  predicate InGroup(d: Display, g: Group) {
    match g
    case ActiveGroup => d == Active
    case PendingGroup => d == Pending
    case ApprovedGroup => d == Approved && d != Active
    case CompletedGroup => d == Completed
    case ClosedGroup => d == Cancelled || d == Rejected
  }

  /** The one group a display status belongs to. */
  function GroupOf(d: Display): Group {
    match d
    case Active => ActiveGroup
    case Pending => PendingGroup
    case Approved => ApprovedGroup
    case Completed => CompletedGroup
    case Cancelled => ClosedGroup
    case Rejected => ClosedGroup
  }

  /** Every display status passes exactly one of the five filters. */
  lemma InGroupExactlyOne(d: Display, g: Group)
    ensures InGroup(d, g) <==> g == GroupOf(d)
  {
  }

  /** `filtered.filter(res => ...)` for one group. */
  function Where(s: seq<Item>, now: int, g: Group): (r: seq<Item>)
    ensures forall x :: x in r <==> x in s && InGroup(StatusOf(x, now), g)
    ensures |r| <= |s|
  {
    if |s| == 0 then []
    else
      var t := Where(s[1..], now, g);
      assert s == [s[0]] + s[1..];
      if InGroup(StatusOf(s[0], now), g) then [s[0]] + t else t
  }

  /** The object `getAllReservations` returns. */
  datatype Grouped = Grouped(
    all: seq<Item>,
    active: seq<Item>,
    pending: seq<Item>,
    approved: seq<Item>,
    completed: seq<Item>,
    cancelled: seq<Item>,
    hasReservations: bool)

  function Members(gr: Grouped, g: Group): seq<Item> {
    match g
    case ActiveGroup => gr.active
    case PendingGroup => gr.pending
    case ApprovedGroup => gr.approved
    case CompletedGroup => gr.completed
    case ClosedGroup => gr.cancelled
  }

  function GetAllReservations(tab: string, regular: seq<Reservation>, events: seq<Reservation>, now: int): (gr: Grouped)
    ensures gr.hasReservations <==> |gr.all| > 0
    ensures NewestFirst(gr.all)
    ensures multiset(gr.all) == multiset(FilterByTab(tab, regular, events))
  {
    var all := SortNewestFirst(FilterByTab(tab, regular, events));
    Grouped(all,
            Where(all, now, ActiveGroup),
            Where(all, now, PendingGroup),
            Where(all, now, ApprovedGroup),
            Where(all, now, CompletedGroup),
            Where(all, now, ClosedGroup),
            |all| > 0)
  }

  /** `a` is `b` with some items dropped, the rest in the same order. */
  predicate SubsequenceOf(a: seq<Item>, b: seq<Item>)
    decreases |b|
  {
    if |a| == 0 then true
    else if |b| == 0 then false
    else if a[0] == b[0] then SubsequenceOf(a[1..], b[1..])
    else SubsequenceOf(a, b[1..])
  }

  lemma {:induction false} WhereIsSubsequence(s: seq<Item>, now: int, g: Group)
    ensures SubsequenceOf(Where(s, now, g), s)
    decreases |s|
  {
    if |s| > 0 {
      WhereIsSubsequence(s[1..], now, g);
      var t := Where(s[1..], now, g);
      if InGroup(StatusOf(s[0], now), g) {
        assert ([s[0]] + t)[1..] == t;
      }
    }
  }

  lemma {:induction false} WhereKeepsNewestFirst(s: seq<Item>, now: int, g: Group)
    requires NewestFirst(s)
    ensures NewestFirst(Where(s, now, g))
    decreases |s|
  {
    if |s| > 0 {
      WhereKeepsNewestFirst(s[1..], now, g);
      var t := Where(s[1..], now, g);
      if InGroup(StatusOf(s[0], now), g) {
        var r := [s[0]] + t;
        forall i, j | 0 <= i < j < |r| ensures Created(r[i]) >= Created(r[j]) {
          if i == 0 {
            assert r[j] in t;
            var k :| 0 <= k < |s[1..]| && s[1..][k] == r[j];
            assert s[k + 1] == r[j];
          } else {
            assert r[i] == t[i - 1] && r[j] == t[j - 1];
          }
        }
      }
    }
  }

  function Count(s: seq<Item>, now: int, g: Group): multiset<Item> {
    multiset(Where(s, now, g))
  }

  /** The five groups' counts added up. */
  function AllGroups(s: seq<Item>, now: int): multiset<Item> {
    Count(s, now, ActiveGroup) + Count(s, now, PendingGroup) + Count(s, now, ApprovedGroup) +
    Count(s, now, CompletedGroup) + Count(s, now, ClosedGroup)
  }

  lemma CountStep(s: seq<Item>, now: int, g: Group)
    requires |s| > 0
    ensures Count(s, now, g) ==
      (if g == GroupOf(StatusOf(s[0], now)) then multiset{s[0]} else multiset{}) + Count(s[1..], now, g)
  {
    InGroupExactlyOne(StatusOf(s[0], now), g);
  }

  /** The first item is counted in its own group and in no other. */
  lemma AllGroupsStep(s: seq<Item>, now: int)
    requires |s| > 0
    ensures AllGroups(s, now) == multiset{s[0]} + AllGroups(s[1..], now)
  {
    var t := s[1..];
    CountStep(s, now, ActiveGroup);
    CountStep(s, now, PendingGroup);
    CountStep(s, now, ApprovedGroup);
    CountStep(s, now, CompletedGroup);
    CountStep(s, now, ClosedGroup);
  }

  /** Each item of the sorted list is counted in exactly one group. */
  lemma {:induction false} GroupsPartition(s: seq<Item>, now: int)
    ensures multiset(s) == AllGroups(s, now)
    decreases |s|
  {
    if |s| > 0 {
      GroupsPartition(s[1..], now);
      assert s == [s[0]] + s[1..];
      AllGroupsStep(s, now);
    }
  }

  /** The five groups of `getAllReservations` together hold the sorted list
      exactly: nothing lost, nothing duplicated. */
  lemma GroupsCoverList(tab: string, regular: seq<Reservation>, events: seq<Reservation>, now: int)
    ensures var gr := GetAllReservations(tab, regular, events, now);
      multiset(gr.all) ==
        multiset(gr.active) + multiset(gr.pending) + multiset(gr.approved) +
        multiset(gr.completed) + multiset(gr.cancelled)
  {
    var gr := GetAllReservations(tab, regular, events, now);
    GroupsPartition(gr.all, now);
  }

  /** An item lands in a group exactly when its display status belongs there. */
  lemma GroupMembership(tab: string, regular: seq<Reservation>, events: seq<Reservation>, now: int, g: Group, x: Item)
    ensures var gr := GetAllReservations(tab, regular, events, now);
      x in Members(gr, g) <==> x in gr.all && GroupOf(StatusOf(x, now)) == g
  {
    InGroupExactlyOne(StatusOf(x, now), g);
  }

  /** Each group keeps the newest-first order of the sorted list. */
  lemma GroupsKeepOrder(tab: string, regular: seq<Reservation>, events: seq<Reservation>, now: int, g: Group)
    ensures var gr := GetAllReservations(tab, regular, events, now);
      NewestFirst(Members(gr, g)) && SubsequenceOf(Members(gr, g), gr.all)
  {
    var gr := GetAllReservations(tab, regular, events, now);
    WhereKeepsNewestFirst(gr.all, now, g);
    WhereIsSubsequence(gr.all, now, g);
  }

  // ----- The clock as the page reads it -----

  /** The clock readings of the five filters, one per item of the list in
      each: every `getReservationStatus` call reads `new Date()` afresh.
      The approved and closed filters may call it a second time for an
      item; `SecondReadingChangesNothing` shows that this later reading
      cannot change the verdict, so it gets no entry here. */
  datatype Reads = Reads(active: seq<int>, pending: seq<int>, approved: seq<int>,
                         completed: seq<int>, closed: seq<int>)

  predicate NonDecreasing(c: seq<int>) {
    forall i, j :: 0 <= i < j < |c| ==> c[i] <= c[j]
  }

  /** Each filter has one reading per item. */
  predicate ReadsFor(t: Reads, n: nat) {
    |t.active| == |t.pending| == |t.approved| == |t.completed| == |t.closed| == n
  }

  /** The readings, in the order the page takes them, never go back. The
      wall clock may step back, so only the counterexamples below assume
      this, to show the discrepancy arises even on a well-behaved clock. */
  predicate ClockNeverBack(t: Reads) {
    NonDecreasing(t.active + t.pending + t.approved + t.completed + t.closed)
  }

  /** A group filter as the page writes it, with the first and the second
      `getReservationStatus` call of the approved and closed filters
      reading the clock at `now1` and `now2`. */
  predicate PageFilter(x: Item, now1: int, now2: int, g: Group) {
    match g
    case ActiveGroup => StatusOf(x, now1) == Active
    case PendingGroup => StatusOf(x, now1) == Pending
    case ApprovedGroup => StatusOf(x, now1) == Approved && StatusOf(x, now2) != Active
    case CompletedGroup => StatusOf(x, now1) == Completed
    case ClosedGroup => StatusOf(x, now1) == Cancelled || StatusOf(x, now2) == Rejected
  }

  /** The second reading cannot change any filter's verdict: the approved
      filter only reaches it on a stored `approved`, and in the closed
      filter it is only compared with `rejected`, which `Derive` returns
      exactly for a stored `rejected`, whatever the time. */
  lemma SecondReadingChangesNothing(x: Item, now1: int, now2: int, g: Group)
    ensures PageFilter(x, now1, now2, g) <==> InGroup(StatusOf(x, now1), g)
  {
  }

  function ReadsOf(t: Reads, g: Group): seq<int> {
    match g
    case ActiveGroup => t.active
    case PendingGroup => t.pending
    case ApprovedGroup => t.approved
    case CompletedGroup => t.completed
    case ClosedGroup => t.closed
  }

  /** One group filter with item `i` judged at reading `clock[i]`. */
  function WhereAt(s: seq<Item>, clock: seq<int>, g: Group): (r: seq<Item>)
    requires |clock| == |s|
    ensures forall x :: x in r <==>
      exists i :: 0 <= i < |s| && s[i] == x && InGroup(StatusOf(s[i], clock[i]), g)
    decreases |s|
  {
    if |s| == 0 then []
    else
      var t := WhereAt(s[1..], clock[1..], g);
      assert forall i :: 0 < i < |s| ==> s[1..][i - 1] == s[i] && clock[1..][i - 1] == clock[i];
      if InGroup(StatusOf(s[0], clock[0]), g) then [s[0]] + t else t
  }

  /** `n` readings all at `now`. */
  function Constant(n: nat, now: int): (c: seq<int>)
    ensures |c| == n && forall i :: 0 <= i < n ==> c[i] == now
  {
    seq(n, _ => now)
  }

  /** A filter whose readings are all one instant is the one-instant filter. */
  lemma {:induction false} WhereAtOneInstant(s: seq<Item>, now: int, g: Group)
    ensures WhereAt(s, Constant(|s|, now), g) == Where(s, now, g)
    decreases |s|
  {
    if |s| > 0 {
      assert Constant(|s|, now)[1..] == Constant(|s| - 1, now);
      WhereAtOneInstant(s[1..], now, g);
    }
  }

  /** The grouping of the sorted list `all` with every item of every
      filter judged at its own clock reading, as the page runs it. */
  function GroupAtReads(all: seq<Item>, t: Reads): (gr: Grouped)
    requires ReadsFor(t, |all|)
    ensures gr.all == all && (gr.hasReservations <==> |all| > 0)
    ensures forall g, x :: x in Members(gr, g) <==>
      exists i :: 0 <= i < |all| && all[i] == x && InGroup(StatusOf(all[i], ReadsOf(t, g)[i]), g)
  {
    Grouped(all,
            WhereAt(all, t.active, ActiveGroup),
            WhereAt(all, t.pending, PendingGroup),
            WhereAt(all, t.approved, ApprovedGroup),
            WhereAt(all, t.completed, CompletedGroup),
            WhereAt(all, t.closed, ClosedGroup),
            |all| > 0)
  }

  /** Readings all at one instant are a possible run of the clock. */
  lemma ConstantReads(n: nat, now: int)
    ensures var c := Constant(n, now); ReadsFor(Reads(c, c, c, c, c), n) && ClockNeverBack(Reads(c, c, c, c, c))
  {
    var c := Constant(n, now);
    var cs := c + c + c + c + c;
    assert forall i :: 0 <= i < |cs| ==> cs[i] == now;
  }

  /** When every reading is the same instant, the grouping is the one
      `GetAllReservations` gives for that instant. */
  lemma OneInstantGrouping(tab: string, regular: seq<Reservation>, events: seq<Reservation>, now: int)
    ensures var all := SortNewestFirst(FilterByTab(tab, regular, events));
      var c := Constant(|all|, now);
      ReadsFor(Reads(c, c, c, c, c), |all|) && ClockNeverBack(Reads(c, c, c, c, c)) &&
      GroupAtReads(all, Reads(c, c, c, c, c)) == GetAllReservations(tab, regular, events, now)
  {
    var all := SortNewestFirst(FilterByTab(tab, regular, events));
    ConstantReads(|all|, now);
    WhereAtOneInstant(all, now, ActiveGroup);
    WhereAtOneInstant(all, now, PendingGroup);
    WhereAtOneInstant(all, now, ApprovedGroup);
    WhereAtOneInstant(all, now, CompletedGroup);
    WhereAtOneInstant(all, now, ClosedGroup);
  }

  /** A pending reservation from 10 ms to 20 ms. */
  const Straddling: Item := Item(Reservation("r", "pending", "unpaid", At(10), At(20), 0, []), false, None)

  /** With the active filter reading the end instant and the completed
      filter one ms later, the reservation is both active and completed. */
  lemma ClockSkewDuplicates()
    ensures var t := Reads([20], [20], [20], [21], [21]);
      && ReadsFor(t, 1) && ClockNeverBack(t)
      && var gr := GroupAtReads([Straddling], t);
      Straddling in gr.active && Straddling in gr.completed
  {
    assert [20] + [20] + [20] + [21] + [21] == [20, 20, 20, 21, 21];
    assert StatusOf(Straddling, 20) == Active;
    assert StatusOf(Straddling, 21) == Completed;
  }

  /** With the active filter reading one ms before the start and the later
      filters reading the start instant, the reservation is in no group. */
  lemma ClockSkewLoses()
    ensures var t := Reads([9], [10], [10], [10], [10]);
      && ReadsFor(t, 1) && ClockNeverBack(t)
      && var gr := GroupAtReads([Straddling], t);
      Straddling in gr.all && forall g :: Straddling !in Members(gr, g)
  {
    assert [9] + [10] + [10] + [10] + [10] == [9, 10, 10, 10, 10];
    assert StatusOf(Straddling, 9) == Pending;
    assert StatusOf(Straddling, 10) == Active;
  }

  /** The clock may also tick between two items of one filter: two
      identical reservations listed together, judged one ms apart by the
      active filter, are not both active. */
  lemma ClockTicksWithinFilter()
    ensures var t := Reads([20, 21], [21, 21], [21, 21], [21, 21], [21, 21]);
      && ReadsFor(t, 2) && ClockNeverBack(t)
      && var gr := GroupAtReads([Straddling, Straddling], t);
      gr.active == [Straddling] && gr.completed == [Straddling, Straddling]
  {
    var t := Reads([20, 21], [21, 21], [21, 21], [21, 21], [21, 21]);
    var cs := t.active + t.pending + t.approved + t.completed + t.closed;
    assert cs == [20, 21, 21, 21, 21, 21, 21, 21, 21, 21];
    assert StatusOf(Straddling, 20) == Active;
    assert StatusOf(Straddling, 21) == Completed;
    var s := [Straddling, Straddling];
    assert s[1..] == [Straddling] && t.active[1..] == [21] && t.completed[1..] == [21];
    var e: seq<Item> := [];
    assert [Straddling][1..] == e && [21][1..] == [];
    assert WhereAt(e, [], ActiveGroup) == [] && WhereAt(e, [], CompletedGroup) == [];
    var a1 := WhereAt([Straddling], [21], ActiveGroup);
    assert a1 == [];
    assert WhereAt(s, t.active, ActiveGroup) == [Straddling] + a1;
    var c1 := WhereAt([Straddling], [21], CompletedGroup);
    assert c1 == [Straddling];
    assert WhereAt(s, t.completed, CompletedGroup) == [Straddling] + c1;
  }

  // ----- Paging -----

  const InitialVisible: nat := 5
  const PageStep: nat := 5

  /** A rendered group: its size badge, the cards shown, and the
      `Load More (n remaining)` button when some are hidden. */
  datatype GroupView = GroupView(count: nat, shown: seq<Item>, remaining: Option<nat>)

  /** `renderReservationGroup`: nothing for an empty group, otherwise the
      first `visibleCount` cards. */
  function RenderGroup(items: seq<Item>, visibleCount: nat): (v: Option<GroupView>)
    ensures v.None? <==> |items| == 0
    ensures v.Some? ==>
      && v.value.count == |items|
      && |v.value.shown| == (if visibleCount < |items| then visibleCount else |items|)
      && v.value.shown <= items
      && (v.value.remaining.Some? <==> |v.value.shown| < |items|)
      && (v.value.remaining.Some? ==> |v.value.shown| + v.value.remaining.value == |items|)
  {
    if |items| == 0 then None
    else
      var shown := if visibleCount < |items| then items[..visibleCount] else items;
      Some(GroupView(|items|, shown,
                     if |items| > |shown| then Some(|items| - |shown|) else None))
  }

  /** `setVisibleCount(prev => prev + 5)`. */
  function LoadMore(visibleCount: nat): (v: nat)
    ensures v > visibleCount
  {
    visibleCount + PageStep
  }

  /** The visible count after `k` presses of the button. */
  function VisibleAfter(k: nat): nat {
    if k == 0 then InitialVisible else LoadMore(VisibleAfter(k - 1))
  }

  lemma {:induction false} VisibleAfterPresses(k: nat)
    ensures VisibleAfter(k) == InitialVisible + PageStep * k
  {
    if k > 0 {
      VisibleAfterPresses(k - 1);
    }
  }

  /** Presses needed before a group of `n` shows every card. */
  function PressesNeeded(n: nat): nat {
    if n <= InitialVisible then 0 else (n - InitialVisible + PageStep - 1) / PageStep
  }

  /** The button disappears after exactly `PressesNeeded(n)` presses, and
      is there after any smaller number of presses. */
  lemma LoadMoreStopsWhenAllShown(items: seq<Item>, k: nat)
    requires |items| > 0
    ensures var v := RenderGroup(items, VisibleAfter(k)).value;
      (v.remaining.None? <==> k >= PressesNeeded(|items|)) &&
      (v.remaining.None? ==> v.shown == items)
  {
    VisibleAfterPresses(k);
  }

  // ----- Card buttons -----

  datatype Action = ViewOnMap | Modify | Cancel

  /** The buttons of a card: always `View on Map`; `Modify` and `Cancel`
      only while pending, and `Modify` only for a regular reservation. */
  function CardActions(status: Display, isEvent: bool): (acts: seq<Action>)
    ensures |acts| >= 1 && acts[0] == ViewOnMap
    ensures Modify in acts <==> status == Pending && !isEvent
    ensures Cancel in acts <==> status == Pending
  {
    [ViewOnMap] +
    (if status == Pending then (if !isEvent then [Modify] else []) + [Cancel] else [])
  }

  function ItemActions(x: Item, now: int): seq<Action> {
    CardActions(StatusOf(x, now), x.isEvent)
  }

  /** Cancelling is only offered for a reservation whose stored status is
      not a verdict and whose valid start is still ahead. */
  lemma CancelOnlyBeforeStart(x: Item, now: int)
    requires Cancel in ItemActions(x, now)
    ensures !IsVerdict(x.res.status)
    ensures x.res.startTime.At? && now < x.res.startTime.ms
  {
    PendingMeansNotStarted(x.res.status, x.res.startTime, x.res.endTime, now);
  }

  datatype PaymentView = PaymentView(paidLabel: bool, payNow: bool)

  /** The payment block: `Paid` only for `paid`, the `Pay Now` button only
      for `unpaid`. */
  function PaymentBlock(paymentStatus: string): (p: PaymentView)
    ensures p.paidLabel <==> paymentStatus == "paid"
    ensures p.payNow <==> paymentStatus == "unpaid"
    ensures !(p.paidLabel && p.payNow)
  {
    PaymentView(paymentStatus == "paid", paymentStatus == "unpaid")
  }

  /** `status.charAt(0).toUpperCase() + status.slice(1)` over the labels. */
  function BadgeText(d: Display): (t: string)
    ensures |t| == |Label(d)|
    ensures t[1..] == Label(d)[1..]
    ensures 'A' <= t[0] <= 'Z' && t[0] as int == Label(d)[0] as int - 32
  {
    var l := Label(d);
    [(l[0] as int - 32) as char] + l[1..]
  }
}

=== FILE: roundtrip.dfy ===
/** The seeding script and the reservations page agree on spot ids: an id
    the script generates is read back by the page's `lotId-spotNum` parse
    and by the event-spot badge. */
module SpotIdRoundTrip {
  import opened Optional
  import opened Text
  import opened LotPrefix
  import opened Seeding
  import opened SpotIds

  /** Splitting a generated id at `-` gives exactly the prefix and the
      zero-padded number. */
  lemma SplitSpotLabel(prefix: string, i: nat)
    requires '-' !in prefix
    ensures Split(SpotLabel(prefix, i), '-') == [prefix, SpotNumber(i)]
  {
    var n := SpotNumber(i);
    var parts := [prefix, n];
    assert parts[1..] == [n];
    assert Join(parts[1..], '-') == n;
    assert Join(parts, '-') == prefix + "-" + n;
    JoinSplit(parts, '-');
  }

  /** A generated id, handed to the page as `spotInfo.spotId`, fills the
      form with the prefix as lot and the id itself as spot; as an event
      spot its badge is the zero-padded number, which reads back as `i`. */
  lemma GeneratedIdReadBack(prefix: string, i: nat)
    requires '-' !in prefix
    ensures ParseSpotInfo(SpotInfo(Some(SpotLabel(prefix, i)), None, None)) ==
            Target(prefix, SpotLabel(prefix, i))
    ensures BadgeOfId(SpotLabel(prefix, i)) == SpotNumber(i)
    ensures DigitsValue(BadgeOfId(SpotLabel(prefix, i))) == i
  {
    SplitSpotLabel(prefix, i);
    assert SpotLabel(prefix, i) == prefix + "-" + SpotNumber(i);
    ParseRecoversLot(prefix, SpotNumber(i));
  }

  /** Every spot a seeded lot lists carries an id the page maps back to
      the lot's prefix and to the spot's position in the lot. */
  lemma SeededSpotsReadBack(s: SeededLot, k: nat)
    requires SpotsOfLot(s)
    requires k < |s.spots|
    ensures var id := s.spots[k].doc.spotId;
      && ParseSpotInfo(SpotInfo(Some(id), None, None)).lotId == PrefixOf(s.lot.lotName)
      && BadgeOfId(id) == SpotNumber(k + 1)
  {
    GeneratedIdReadBack(PrefixOf(s.lot.lotName), k + 1);
  }
}

=== FILE: seeding.dfy ===
/** `parseOrZero`: `parseInt(value, 10)`, with 0 in place of NaN. */
module IntParse {
  import opened Text

  /** The characters `parseInt` skips before the number: ECMAScript's
      WhiteSpace and LineTerminator code points. */
  predicate IsJsSpace(c: char) {
    var n := c as int;
    n == 0x09 || n == 0x0A || n == 0x0B || n == 0x0C || n == 0x0D || n == 0x20 ||
    n == 0xA0 || n == 0x1680 || (0x2000 <= n <= 0x200A) || n == 0x2028 || n == 0x2029 ||
    n == 0x202F || n == 0x205F || n == 0x3000 || n == 0xFEFF
  }

  predicate AllSpace(s: string) {
    forall i :: 0 <= i < |s| ==> IsJsSpace(s[i])
  }

  /** The text with its leading white space removed. */
  function TrimStart(s: string): (r: string)
    ensures |r| <= |s|
    ensures |r| == 0 || !IsJsSpace(r[0])
  {
    if |s| > 0 && IsJsSpace(s[0]) then TrimStart(s[1..])
    else s
  }

  /** What trimming removes is white space, and what it keeps is a suffix. */
  lemma {:induction false} TrimStartDropsSpace(s: string)
    ensures var r := TrimStart(s); r == s[|s| - |r|..] && AllSpace(s[..|s| - |r|])
    decreases |s|
  {
    if |s| > 0 && IsJsSpace(s[0]) {
      var r := TrimStart(s[1..]);
      TrimStartDropsSpace(s[1..]);
      assert s[..|s| - |r|] == [s[0]] + s[1..][..|s[1..]| - |r|];
    }
  }

  /** The longest run of decimal digits the text begins with. */
  function LeadingDigits(s: string): (d: string)
    ensures d <= s && AllDigits(d)
    ensures |d| == |s| || !IsDigit(s[|d|])
  {
    if |s| > 0 && IsDigit(s[0]) then
      var d := LeadingDigits(s[1..]);
      assert [s[0]] + d <= s;
      [s[0]] + d
    else []
  }

  /** The value of the leading digits; 0 when there are none, which is
      where `parseInt` gives NaN and `parseOrZero` gives 0. */
  function Magnitude(body: string): nat {
    DigitsValue(LeadingDigits(body))
  }

  /** The number read from already-trimmed text: an optional sign, then
      the leading digits (`-0` and `0` are the same integer). */
  function ReadSigned(t: string): int {
    if |t| > 0 && t[0] == '-' then -(Magnitude(t[1..]) as int)
    else if |t| > 0 && t[0] == '+' then Magnitude(t[1..])
    else Magnitude(t)
  }

  /** `parseOrZero(value)` on the value's text. */
  function ParseOrZero(text: string): (n: int)
    ensures var t := TrimStart(text); (|t| == 0 || t[0] != '-') ==> n >= 0
  {
    ReadSigned(TrimStart(text))
  }

  lemma {:induction false} TrimStartSkips(ws: string, x: string)
    requires AllSpace(ws)
    requires |x| == 0 || !IsJsSpace(x[0])
    ensures TrimStart(ws + x) == x
    decreases |ws|
  {
    if |ws| > 0 {
      assert (ws + x)[1..] == ws[1..] + x;
      TrimStartSkips(ws[1..], x);
    } else {
      assert ws + x == x;
    }
  }

  lemma {:induction false} LeadingDigitsStop(d: string, rest: string)
    requires AllDigits(d)
    requires |rest| == 0 || !IsDigit(rest[0])
    ensures LeadingDigits(d + rest) == d
    decreases |d|
  {
    if |d| > 0 {
      assert (d + rest)[1..] == d[1..] + rest;
      LeadingDigitsStop(d[1..], rest);
      assert d == [d[0]] + d[1..];
    } else {
      assert d + rest == rest;
    }
  }

  lemma ReadsDigits(m: nat, rest: string)
    requires |rest| == 0 || !IsDigit(rest[0])
    ensures Magnitude(Decimal(m) + rest) == m
  {
    DecimalValue(m);
    LeadingDigitsStop(Decimal(m), rest);
  }

  /** Text that does not start with white space is read as it stands. */
  lemma NoSpaceToTrim(x: string)
    requires |x| == 0 || !IsJsSpace(x[0])
    ensures ParseOrZero(x) == ReadSigned(x)
  {
    TrimStartSkips("", x);
    assert "" + x == x;
  }

  lemma ReadsIntText(n: int, rest: string)
    requires |rest| == 0 || !IsDigit(rest[0])
    ensures ReadSigned(IntText(n) + rest) == n
  {
    var x := IntText(n) + rest;
    if n < 0 {
      assert x == "-" + (Decimal(-n) + rest);
      assert x[1..] == Decimal(-n) + rest;
      ReadsDigits(-n, rest);
    } else {
      assert x == Decimal(n) + rest;
      assert x[0] == Decimal(n)[0];
      ReadsDigits(n, rest);
    }
  }

  /** `String(n)` is told apart from every other integer's text: the
      round trip through `ReadSigned` recovers `n`. */
  lemma IntTextInjective(a: int, b: int)
    ensures IntText(a) == IntText(b) <==> a == b
  {
    ReadsIntText(a, "");
    ReadsIntText(b, "");
    assert IntText(a) + "" == IntText(a) && IntText(b) + "" == IntText(b);
  }

  /** `parseOrZero` reads back any integer written as `String(n)`, whatever
      white space precedes it and whatever non-digit text follows it; a
      corollary of `ParseOrZeroReadsDigits`. */
  lemma ParseOrZeroReadsInteger(ws: string, n: int, rest: string)
    requires AllSpace(ws)
    requires |rest| == 0 || !IsDigit(rest[0])
    ensures ParseOrZero(ws + IntText(n) + rest) == n
  {
    var sign := if n < 0 then "-" else "";
    var m := if n < 0 then -n else n;
    IntTextParts(ws, n, rest);
    DecimalValue(m);
    ParseOrZeroReadsDigits(ws, sign, Decimal(m), rest);
  }

  /** `String(n)` is a sign followed by the decimal digits of `|n|`. */
  lemma IntTextParts(ws: string, n: int, rest: string)
    ensures ws + IntText(n) + rest ==
      ws + (if n < 0 then "-" else "") + Decimal(if n < 0 then -n else n) + rest
  {
    var sign := if n < 0 then "-" else "";
    var d := Decimal(if n < 0 then -n else n);
    assert IntText(n) == sign + d;
    AppendFour(ws, sign, d, rest);
  }

  /** An explicit `+` sign is accepted too; a corollary of
      `ParseOrZeroReadsDigits`. */
  lemma ParseOrZeroPlusSign(n: nat, rest: string)
    requires |rest| == 0 || !IsDigit(rest[0])
    ensures ParseOrZero("+" + Decimal(n) + rest) == n
  {
    DecimalValue(n);
    ParseOrZeroReadsDigits("", "+", Decimal(n), rest);
    assert "" + "+" + Decimal(n) + rest == "+" + Decimal(n) + rest;
  }

  /** Text with no digit where the number should start reads as 0
      (`parseInt` gives NaN), e.g. an empty cell. */
  lemma ParseOrZeroWithoutDigits(ws: string, rest: string)
    requires AllSpace(ws)
    requires |rest| == 0 || (!IsDigit(rest[0]) && !IsJsSpace(rest[0]) && rest[0] != '-' && rest[0] != '+')
    ensures ParseOrZero(ws + rest) == 0
  {
    TrimStartSkips(ws, rest);
  }

  /** The sign `parseInt` accepts before the digits: none, `+` or `-`. */
  predicate IsSign(sign: string) {
    sign == "" || sign == "+" || sign == "-"
  }

  /** Digits with no sign are read as they stand. */
  lemma ReadsUnsignedDigits(d: string, rest: string)
    requires |d| > 0 && AllDigits(d)
    requires |rest| == 0 || !IsDigit(rest[0])
    ensures ReadSigned(d + rest) == DigitsValue(d)
  {
    LeadingDigitsStop(d, rest);
    assert (d + rest)[0] == d[0];
  }

  /** A one-character sign is dropped before the digits are read. */
  lemma ReadsAfterSign(sign: string, y: string)
    requires sign == "+" || sign == "-"
    ensures ReadSigned(sign + y) == if sign == "-" then -(Magnitude(y) as int) else Magnitude(y)
  {
    assert (sign + y)[0] == sign[0];
    assert (sign + y)[1..] == y;
  }

  /** The signed number read from a sign followed by digits. */
  lemma ReadsSignedDigits(sign: string, d: string, rest: string)
    requires IsSign(sign)
    requires |d| > 0 && AllDigits(d)
    requires |rest| == 0 || !IsDigit(rest[0])
    ensures ReadSigned(sign + (d + rest)) ==
      if sign == "-" then -(DigitsValue(d) as int) else DigitsValue(d)
  {
    if sign == "" {
      assert sign + (d + rest) == d + rest;
      ReadsUnsignedDigits(d, rest);
    } else {
      ReadsAfterSign(sign, d + rest);
      LeadingDigitsStop(d, rest);
    }
  }

  lemma AppendFour(a: string, b: string, c: string, e: string)
    ensures a + b + c + e == a + (b + (c + e))
  {
  }

  /** A sign or a digit is not white space. */
  lemma SignedTextStart(sign: string, d: string, rest: string)
    requires IsSign(sign) && |d| > 0 && AllDigits(d)
    ensures !IsJsSpace((sign + (d + rest))[0])
  {
    if sign == "" {
      assert (sign + (d + rest))[0] == d[0];
    } else {
      assert (sign + (d + rest))[0] == sign[0];
    }
  }

  /** `parseOrZero` reads any run of decimal digits, leading zeros allowed,
      after any white space and an optional sign, and stops at the first
      character that is not a digit. */
  lemma ParseOrZeroReadsDigits(ws: string, sign: string, d: string, rest: string)
    requires AllSpace(ws) && IsSign(sign)
    requires |d| > 0 && AllDigits(d)
    requires |rest| == 0 || !IsDigit(rest[0])
    ensures ParseOrZero(ws + sign + d + rest) ==
      if sign == "-" then -(DigitsValue(d) as int) else DigitsValue(d)
  {
    var x := sign + (d + rest);
    AppendFour(ws, sign, d, rest);
    SignedTextStart(sign, d, rest);
    TrimStartSkips(ws, x);
    ReadsSignedDigits(sign, d, rest);
  }

  /** A sign with no digit after it reads as 0 (`parseInt` gives NaN). */
  lemma ParseOrZeroSignWithoutDigits(ws: string, sign: string, rest: string)
    requires AllSpace(ws) && (sign == "+" || sign == "-")
    requires |rest| == 0 || !IsDigit(rest[0])
    ensures ParseOrZero(ws + sign + rest) == 0
  {
    var x := sign + rest;
    assert ws + sign + rest == ws + x;
    assert x[0] == sign[0];
    TrimStartSkips(ws, x);
    LeadingDigitsStop("", rest);
    assert x[1..] == "" + rest;
  }

  /** Examples: leading zeros are read past, with or without a sign. */
  lemma ParseOrZeroExamples()
    ensures ParseOrZero("007") == 7
    ensures ParseOrZero("-007") == -7
  {
    assert DigitsValue("007") == 7 by {
      assert "007"[..2] == "00" && "00"[..1] == "0" && "0"[..0] == "";
    }
    ParseOrZeroReadsDigits("", "", "007", "");
    assert "" + "" + "007" + "" == "007";
    ParseOrZeroReadsDigits("", "-", "007", "");
    assert "" + "-" + "007" + "" == "-007";
  }

  /** Example: white space before a sign. */
  lemma ParseOrZeroSpaceExample()
    ensures ParseOrZero(" +5") == 5
  {
    assert DigitsValue("5") == 5 by {
      assert "5"[..0] == "";
    }
    ParseOrZeroReadsDigits(" ", "+", "5", "");
    assert " " + "+" + "5" + "" == " +5";
  }

  /** Examples: a bare sign, and a sign before a letter. */
  lemma ParseOrZeroSignExamples()
    ensures ParseOrZero("-") == 0
    ensures ParseOrZero("+x") == 0
  {
    ParseOrZeroSignWithoutDigits("", "-", "");
    assert "" + "-" + "" == "-";
    ParseOrZeroSignWithoutDigits("", "+", "x");
    assert "" + "+" + "x" == "+x";
  }
}

/** The lot prefix the seeding script takes from a location, via
    `rawLocation.match(/\b[A-Za-z0-9]+\b/g)`. */
module LotPrefix {
  import opened Text

  predicate IsAlnum(c: char) {
    ('A' <= c <= 'Z') || ('a' <= c <= 'z') || ('0' <= c <= '9')
  }

  predicate AllAlnum(s: string) {
    forall i :: 0 <= i < |s| ==> IsAlnum(s[i])
  }

  /** Length of the run of letters and digits the text begins with. */
  function RunLength(s: string): (n: nat)
    ensures n <= |s| && AllAlnum(s[..n])
    ensures n == |s| || !IsAlnum(s[n])
    ensures |s| > 0 && IsAlnum(s[0]) ==> n >= 1
  {
    if |s| > 0 && IsAlnum(s[0]) then
      var n := 1 + RunLength(s[1..]);
      assert s[..n] == [s[0]] + s[1..][..n - 1];
      n
    else 0
  }

  /** The regular expression's matches. A match is a maximal run of ASCII
      letters and digits: the pattern's greedy `+` takes the whole run, and
      the word boundaries on both sides fail when the run touches `_`
      (itself a word character), in which case that run gives no match.
      `afterUnderscore` says whether the character before `s` is `_`. */
  function Tokens(s: string, afterUnderscore: bool): (ts: seq<string>)
    ensures forall i :: 0 <= i < |ts| ==> |ts[i]| > 0 && AllAlnum(ts[i])
    decreases |s|
  {
    if |s| == 0 then []
    else if !IsAlnum(s[0]) then Tokens(s[1..], s[0] == '_')
    else
      var n := RunLength(s);
      var rest := s[n..];
      var keep := !afterUnderscore && (|rest| == 0 || rest[0] != '_');
      (if keep then [s[..n]] else []) + Tokens(rest, false)
  }

  /** The fallback prefix when the location has fewer than two matches. */
  const DefaultPrefix: string := "LOT"

  /** `prefixMatch[1]` when there are at least two matches, else `LOT`. */
  function PrefixOf(location: string): (p: string)
    ensures |p| > 0 && AllAlnum(p)
    ensures '-' !in p
  {
    var ts := Tokens(location, false);
    if |ts| > 1 then
      assert forall i :: 0 <= i < |ts[1]| ==> IsAlnum(ts[1][i]);
      ts[1]
    else DefaultPrefix
  }

  lemma {:induction false} RunLengthOfWord(w: string, rest: string)
    requires |w| > 0 && AllAlnum(w)
    requires |rest| == 0 || !IsAlnum(rest[0])
    ensures RunLength(w + rest) == |w|
    decreases |w|
  {
    var x := w + rest;
    assert x[0] == w[0] && IsAlnum(x[0]);
    if |w| > 1 {
      assert x[1..] == w[1..] + rest;
      RunLengthOfWord(w[1..], rest);
    } else {
      assert x[1..] == rest;
      assert RunLength(rest) == 0;
    }
  }

  /** A location made of words separated by single spaces matches exactly
      those words. */
  lemma {:induction false} TokensOfSpacedWords(words: seq<string>)
    requires |words| > 0
    requires forall i :: 0 <= i < |words| ==> |words[i]| > 0 && AllAlnum(words[i])
    ensures Tokens(Join(words, ' '), false) == words
    decreases |words|
  {
    var w := words[0];
    if |words| == 1 {
      RunLengthOfWord(w, "");
      assert w + "" == w;
      assert w[..|w|] == w;
    } else {
      var tail := Join(words[1..], ' ');
      var s := Join(words, ' ');
      assert s == w + (" " + tail);
      RunLengthOfWord(w, " " + tail);
      assert s[..|w|] == w;
      assert s[|w|..] == " " + tail;
      assert (" " + tail)[1..] == tail;
      TokensOfSpacedWords(words[1..]);
      assert words == [w] + words[1..];
    }
  }

  /** With at least two words, the prefix is the second one. */
  lemma PrefixOfSpacedWords(words: seq<string>)
    requires |words| >= 2
    requires forall i :: 0 <= i < |words| ==> |words[i]| > 0 && AllAlnum(words[i])
    ensures PrefixOf(Join(words, ' ')) == words[1]
  {
    TokensOfSpacedWords(words);
  }

  /** With a single word (`NA`, say), the prefix falls back to `LOT`. */
  lemma PrefixOfOneWord(w: string)
    requires |w| > 0 && AllAlnum(w)
    ensures PrefixOf(w) == DefaultPrefix
  {
    TokensOfSpacedWords([w]);
  }

  // ----- The matches, stated over positions of the location -----

  /** A word character for `\b` without the `u` flag: ASCII letters,
      digits and `_`. */
  predicate IsWordChar(c: char) {
    IsAlnum(c) || c == '_'
  }

  /** `s[i..j]` is a match of `\b[A-Za-z0-9]+\b`: letters and digits only,
      with no word character just before or just after it. */
  predicate MatchAt(s: string, i: int, j: int) {
    && 0 <= i < j <= |s|
    && (forall m :: i <= m < j ==> IsAlnum(s[m]))
    && (i == 0 || !IsWordChar(s[i - 1]))
    && (j == |s| || !IsWordChar(s[j]))
  }

  /** Where a position may start a scan: not inside a run of letters and digits. */
  predicate ScanStart(s: string, k: nat) {
    k <= |s| && (k == |s| || !IsAlnum(s[k]) || k == 0 || !IsAlnum(s[k - 1]))
  }

  /** The end of the run of letters and digits starting at position `k`. */
  function RunEnd(s: string, k: nat): (j: nat)
    requires k <= |s|
    ensures k <= j <= |s| && (j == |s| || !IsAlnum(s[j]))
    ensures forall m :: k <= m < j ==> IsAlnum(s[m])
    ensures k < |s| && IsAlnum(s[k]) ==> k < j
    decreases |s| - k
  {
    if k < |s| && IsAlnum(s[k]) then RunEnd(s, k + 1) else k
  }

  /** `RunEnd` and `RunLength` measure the same run. */
  lemma {:induction false} RunEndIsRunLength(s: string, k: nat)
    requires k <= |s|
    ensures RunEnd(s, k) == k + RunLength(s[k..])
    decreases |s| - k
  {
    if k < |s| && IsAlnum(s[k]) {
      assert s[k..][1..] == s[k + 1..];
      RunEndIsRunLength(s, k + 1);
    } else if k < |s| {
      assert s[k..][0] == s[k];
    }
  }

  /** Whether the regular expression keeps the run `[k, j)`: neither
      neighbour is `_`. */
  predicate Kept(s: string, k: nat, j: nat)
    requires k <= j <= |s|
  {
    (k == 0 || s[k - 1] != '_') && (j == |s| || s[j] != '_')
  }

  /** The positions `[i, j)` of the runs `Tokens` keeps, scanning from `k`. */
  function Spans(s: string, k: nat): (sp: seq<(nat, nat)>)
    requires k <= |s|
    ensures forall n :: 0 <= n < |sp| ==> k <= sp[n].0 < sp[n].1 <= |s| && IsAlnum(s[sp[n].0])
    decreases |s| - k
  {
    if k == |s| then []
    else if !IsAlnum(s[k]) then Spans(s, k + 1)
    else
      var j := RunEnd(s, k);
      (if Kept(s, k, j) then [(k, j)] else []) + Spans(s, j)
  }

  /** `ts` lists the texts of the spans `sp` of `s`. */
  predicate TextsOf(s: string, sp: seq<(nat, nat)>, ts: seq<string>) {
    && |ts| == |sp|
    && forall n :: 0 <= n < |sp| ==> sp[n].0 <= sp[n].1 <= |s| && ts[n] == s[sp[n].0..sp[n].1]
  }

  lemma TextsOfCons(s: string, i: nat, j: nat, sp: seq<(nat, nat)>, ts: seq<string>, keep: bool)
    requires i <= j <= |s| && TextsOf(s, sp, ts)
    ensures TextsOf(s, (if keep then [(i, j)] else []) + sp, (if keep then [s[i..j]] else []) + ts)
  {
  }

  /** One step of `Tokens` over a character that is not a letter or digit. */
  lemma TokensSkip(s: string, k: nat, after: bool)
    requires k < |s| && !IsAlnum(s[k])
    ensures Tokens(s[k..], after) == Tokens(s[k + 1..], s[k] == '_')
  {
    assert s[k..][0] == s[k] && s[k..][1..] == s[k + 1..];
  }

  /** One step of `Tokens` over a whole run. */
  lemma TokensRun(s: string, k: nat, after: bool)
    requires k < |s| && IsAlnum(s[k])
    ensures var j := RunEnd(s, k);
      Tokens(s[k..], after) ==
        (if !after && (j == |s| || s[j] != '_') then [s[k..j]] else []) + Tokens(s[j..], false)
  {
    var t := s[k..];
    var n := RunLength(t);
    var j := k + n;
    RunEndIsRunLength(s, k);
    assert t[..n] == s[k..j];
    assert t[n..] == s[j..];
    if j < |s| {
      assert t[n..][0] == s[j];
    }
  }

  /** `Tokens` on the text from `k` lists the texts of `Spans(s, k)`. */
  lemma {:induction false} TokensFollowSpans(s: string, k: nat)
    requires ScanStart(s, k)
    ensures TextsOf(s, Spans(s, k), Tokens(s[k..], k > 0 && s[k - 1] == '_'))
    decreases |s| - k
  {
    if k == |s| {
    } else if !IsAlnum(s[k]) {
      TokensSkip(s, k, k > 0 && s[k - 1] == '_');
      TokensFollowSpans(s, k + 1);
    } else {
      var j := RunEnd(s, k);
      TokensRun(s, k, k > 0 && s[k - 1] == '_');
      TokensFollowSpans(s, j);
      TextsOfCons(s, k, j, Spans(s, j), Tokens(s[j..], false), Kept(s, k, j));
    }
  }

  /** Every span is a match. */
  ghost predicate AllMatches(s: string, sp: seq<(nat, nat)>) {
    forall n :: 0 <= n < |sp| ==> MatchAt(s, sp[n].0, sp[n].1)
  }

  /** The spans are strictly increasing and do not touch. */
  predicate Increasing(sp: seq<(nat, nat)>) {
    forall m, n :: 0 <= m < n < |sp| ==> sp[m].1 < sp[n].0
  }

  /** Every match that starts at or after `from` is a span. */
  ghost predicate HoldsMatchesFrom(s: string, sp: seq<(nat, nat)>, from: nat) {
    forall i, j :: from <= i && MatchAt(s, i, j) ==> (i, j) in sp
  }

  /** The spans are matches, strictly increasing, and hold every match
      that starts at or after `from`. */
  ghost predicate MatchList(s: string, sp: seq<(nat, nat)>, from: nat) {
    AllMatches(s, sp) && Increasing(sp) && HoldsMatchesFrom(s, sp, from)
  }

  /** The only match starting at the start `k` of a run is the whole run,
      kept; and a match cannot start inside a run. */
  lemma MatchInRun(s: string, k: nat, i: int, j': int)
    requires ScanStart(s, k) && k < |s| && IsAlnum(s[k])
    requires k <= i && MatchAt(s, i, j')
    ensures i == k ==> j' == RunEnd(s, k) && Kept(s, k, j')
    ensures i < RunEnd(s, k) ==> i == k
  {
  }

  /** One step of completeness: a match at or after `k` is among the spans
      from `k` when the later matches are among the later spans. */
  lemma SpansComplete(s: string, k: nat, i: int, j': int)
    requires ScanStart(s, k) && k < |s|
    requires k <= i && MatchAt(s, i, j')
    requires IsAlnum(s[k]) ==>
      forall i2, j2 :: RunEnd(s, k) <= i2 && MatchAt(s, i2, j2) ==> (i2, j2) in Spans(s, RunEnd(s, k))
    requires !IsAlnum(s[k]) ==>
      forall i2, j2 :: k + 1 <= i2 && MatchAt(s, i2, j2) ==> (i2, j2) in Spans(s, k + 1)
    ensures (i, j') in Spans(s, k)
  {
    if IsAlnum(s[k]) {
      MatchInRun(s, k, i, j');
      var j := RunEnd(s, k);
      var head: seq<(nat, nat)> := if Kept(s, k, j) then [(k, j)] else [];
      assert Spans(s, k) == head + Spans(s, j);
      if i == k {
        assert (i, j') in head;
      } else {
        assert (i, j') in Spans(s, j);
      }
    } else {
      assert i != k;
    }
  }

  /** Putting the run `[k, j)` in front of the later spans keeps them
      matches in increasing order. */
  lemma HeadMatchList(s: string, k: nat, j: nat, keep: bool, rest: seq<(nat, nat)>)
    requires k < |s| && IsAlnum(s[k]) && (k == 0 || !IsAlnum(s[k - 1])) && j == RunEnd(s, k)
    requires keep ==> Kept(s, k, j)
    requires forall n :: 0 <= n < |rest| ==> j < rest[n].0
    requires AllMatches(s, rest) && Increasing(rest)
    ensures var sp := (if keep then [(k, j)] else []) + rest;
      AllMatches(s, sp) && Increasing(sp)
  {
  }

  /** The step of `SpansAreMatches` over a character that is not a letter or digit. */
  lemma SpansSkipList(s: string, k: nat)
    requires ScanStart(s, k) && k < |s| && !IsAlnum(s[k])
    requires MatchList(s, Spans(s, k + 1), k + 1)
    ensures MatchList(s, Spans(s, k), k)
  {
    forall i, j | k <= i && MatchAt(s, i, j) ensures (i, j) in Spans(s, k) {
      SpansComplete(s, k, i, j);
    }
  }

  /** The spans after a run begin after its end. */
  lemma RestAfterRun(s: string, k: nat)
    requires k < |s| && IsAlnum(s[k])
    ensures forall n :: 0 <= n < |Spans(s, RunEnd(s, k))| ==> RunEnd(s, k) < Spans(s, RunEnd(s, k))[n].0
  {
    var j := RunEnd(s, k);
    var rest := Spans(s, j);
    forall n | 0 <= n < |rest| ensures j < rest[n].0 {
      assert IsAlnum(s[rest[n].0]);
    }
  }

  /** The step of `SpansAreMatches` over a whole run: soundness and order. */
  lemma SpansRunSound(s: string, k: nat)
    requires ScanStart(s, k) && k < |s| && IsAlnum(s[k])
    requires AllMatches(s, Spans(s, RunEnd(s, k))) && Increasing(Spans(s, RunEnd(s, k)))
    ensures AllMatches(s, Spans(s, k)) && Increasing(Spans(s, k))
  {
    var j := RunEnd(s, k);
    RestAfterRun(s, k);
    HeadMatchList(s, k, j, Kept(s, k, j), Spans(s, j));
  }

  /** The step of `SpansAreMatches` over a whole run: completeness. */
  lemma SpansRunComplete(s: string, k: nat)
    requires ScanStart(s, k) && k < |s| && IsAlnum(s[k])
    requires HoldsMatchesFrom(s, Spans(s, RunEnd(s, k)), RunEnd(s, k))
    ensures HoldsMatchesFrom(s, Spans(s, k), k)
  {
    forall i, j' | k <= i && MatchAt(s, i, j') ensures (i, j') in Spans(s, k) {
      SpansComplete(s, k, i, j');
    }
  }

  lemma {:induction false} SpansAreMatches(s: string, k: nat)
    requires ScanStart(s, k)
    ensures MatchList(s, Spans(s, k), k)
    decreases |s| - k
  {
    if k == |s| {
    } else if !IsAlnum(s[k]) {
      SpansAreMatches(s, k + 1);
      SpansSkipList(s, k);
    } else {
      SpansAreMatches(s, RunEnd(s, k));
      SpansRunSound(s, k);
      SpansRunComplete(s, k);
    }
  }

  /** For every location, the regular expression's matches are exactly
      its maximal runs of letters and digits not next to `_`, in order of
      position: `Spans(s, 0)` gives their places. */
  lemma TokensAreMatches(s: string)
    ensures TextsOf(s, Spans(s, 0), Tokens(s, false))
    ensures forall n :: 0 <= n < |Spans(s, 0)| ==> MatchAt(s, Spans(s, 0)[n].0, Spans(s, 0)[n].1)
    ensures forall m, n :: 0 <= m < n < |Spans(s, 0)| ==> Spans(s, 0)[m].1 < Spans(s, 0)[n].0
    ensures forall i, j :: MatchAt(s, i, j) ==> (i, j) in Spans(s, 0)
  {
    assert s[0..] == s;
    TokensFollowSpans(s, 0);
    SpansAreMatches(s, 0);
  }

  /** The prefix is the text of the second match when there are two or
      more, and `LOT` otherwise. */
  lemma PrefixIsSecondMatch(s: string)
    ensures var sp := Spans(s, 0);
      PrefixOf(s) == if |sp| > 1 then s[sp[1].0..sp[1].1] else DefaultPrefix
  {
    TokensAreMatches(s);
  }
}

/** The seeding script's per-row work: a lot record built from a
    spreadsheet row and its `PREFIX-NNN` spot documents. Database writes
    become values; the ids the database assigns are fresh numbers. */
module Seeding {
  import opened Optional
  import opened Text
  import opened IntParse
  import opened LotPrefix

  /** A spreadsheet row, column header to cell text. `sheet_to_json` with
      `defval: ''` gives every column, so a missing one reads as "". */
  type Row = map<string, string>

  function Cell(row: Row, column: string): string {
    if column in row then row[column] else ""
  }

  /** A document id the database assigns (`_id`). */
  type DocId = nat

  /** Only the first 87 rows of the sheet are imported. */
  const MaxRows: nat := 87

  datatype LotRecord = LotRecord(
    docId: DocId,
    lotId: string,
    lotName: string,
    location: string,
    capacity: int,
    baseRate: int,
    facultyStaff: int,
    commuterPremium: int,
    metered: int,
    commuter: int,
    resident: int,
    ada: int,
    reservedMisc: int,
    stateVehiclesOnly: int,
    specialServiceVehiclesOnly: int,
    stateAndSpecialServiceVehicles: int,
    evCharging: int,
    spots: seq<DocId>)

  datatype SpotRecord = SpotRecord(
    spotId: string,
    parkingLotId: DocId,
    spotType: string,
    isOccupied: bool,
    isReserved: bool,
    level: int)

  datatype StoredSpot = StoredSpot(id: DocId, doc: SpotRecord)

  datatype SeededLot = SeededLot(lot: LotRecord, spots: seq<StoredSpot>)

  function Max0(n: int): nat {
    if n > 0 then n else 0
  }

  /** `row['Location'] || 'NA'`. */
  function LotName(row: Row): (name: string)
    ensures name != ""
    ensures Cell(row, "Location") != "" ==> name == Cell(row, "Location")
    ensures Cell(row, "Location") == "" ==> name == "NA"
  {
    var loc := Cell(row, "Location");
    if loc == "" then "NA" else loc
  }

  /** The zero-padded spot number: `String(i).padStart(3, '0')`. */
  function SpotNumber(i: nat): (t: string)
    ensures |t| >= 3 && AllDigits(t) && '-' !in t
    ensures DigitsValue(t) == i
  {
    ZeroPaddedValue(i, 3);
    PadStart(Decimal(i), 3, '0')
  }

  /** `${prefix}-${String(i).padStart(3, '0')}`. */
  function SpotLabel(prefix: string, i: nat): string {
    prefix + "-" + SpotNumber(i)
  }

  /** A spot id is the prefix, a dash, and the spot number text: at least
      three digits whose value is `i`. */
  lemma SpotLabelParts(prefix: string, i: nat)
    ensures var t := SpotLabel(prefix, i);
      && |t| >= |prefix| + 4
      && t[..|prefix|] == prefix && t[|prefix|] == '-'
      && AllDigits(t[|prefix| + 1..]) && DigitsValue(t[|prefix| + 1..]) == i
  {
    var t := SpotLabel(prefix, i);
    assert t[|prefix| + 1..] == SpotNumber(i);
  }

  /** The spot document for number `i` of the lot saved as `lot`: a free,
      unreserved regular spot on level 1 that points back at the lot. */
  function NewSpot(prefix: string, i: nat, lot: DocId): (spot: SpotRecord)
    ensures spot.spotId == SpotLabel(prefix, i) && spot.parkingLotId == lot
    ensures spot.spotType == "regular" && !spot.isOccupied && !spot.isReserved && spot.level == 1
  {
    SpotRecord(SpotLabel(prefix, i), lot, "regular", false, false, 1)
  }

  /** Spot numbers are told apart by their labels. */
  lemma SpotLabelInjective(prefix: string, i: nat, j: nat)
    ensures SpotLabel(prefix, i) == SpotLabel(prefix, j) <==> i == j
  {
    SpotLabelParts(prefix, i);
    SpotLabelParts(prefix, j);
  }

  /** Documents that are spot numbers 1, 2, ... of one lot have pairwise
      distinct spot ids. */
  lemma NumberedSpotsDistinct(prefix: string, docs: seq<SpotRecord>, lot: DocId)
    requires forall k :: 0 <= k < |docs| ==> docs[k] == NewSpot(prefix, k + 1, lot)
    ensures forall a, b :: 0 <= a < b < |docs| ==> docs[a].spotId != docs[b].spotId
  {
    forall a, b | 0 <= a < b < |docs| ensures docs[a].spotId != docs[b].spotId {
      SpotLabelInjective(prefix, a + 1, b + 1);
    }
  }

  /** Appending the document for the next spot number keeps the documents
      numbered 1, 2, ... */
  lemma AppendNumbered(prefix: string, docs: seq<SpotRecord>, lot: DocId)
    requires forall k :: 0 <= k < |docs| ==> docs[k] == NewSpot(prefix, k + 1, lot)
    ensures var ds := docs + [NewSpot(prefix, |docs| + 1, lot)];
      forall k :: 0 <= k < |ds| ==> ds[k] == NewSpot(prefix, k + 1, lot)
  {
    var ds := docs + [NewSpot(prefix, |docs| + 1, lot)];
    forall k | 0 <= k < |ds| ensures ds[k] == NewSpot(prefix, k + 1, lot) {
      if k < |docs| {
        assert ds[k] == docs[k];
      }
    }
  }

  /** The `for (let i = 1; i <= totalSpaces; i++)` loop. */
  method GenerateSpots(prefix: string, totalSpaces: int, lot: DocId) returns (docs: seq<SpotRecord>)
    ensures |docs| == Max0(totalSpaces)
    ensures forall k :: 0 <= k < |docs| ==> docs[k] == NewSpot(prefix, k + 1, lot)
    ensures forall a, b :: 0 <= a < b < |docs| ==> docs[a].spotId != docs[b].spotId
  {
    docs := [];
    var i := 1;
    while i <= totalSpaces
      invariant 1 <= i <= Max0(totalSpaces) + 1
      invariant |docs| == i - 1
      invariant forall k :: 0 <= k < |docs| ==> docs[k] == NewSpot(prefix, k + 1, lot)
      decreases totalSpaces - i
    {
      AppendNumbered(prefix, docs, lot);
      docs := docs + [NewSpot(prefix, i, lot)];
      i := i + 1;
    }
    NumberedSpotsDistinct(prefix, docs, lot);
  }

  /** `ParkingSpot.insertMany(spotDocs)`: the database stores the documents
      in order and gives them consecutive fresh ids from `firstId`. */
  function InsertMany(docs: seq<SpotRecord>, firstId: DocId): (stored: seq<StoredSpot>)
    ensures |stored| == |docs|
    ensures forall k :: 0 <= k < |docs| ==> stored[k] == StoredSpot(firstId + k, docs[k])
  {
    seq(|docs|, k requires 0 <= k < |docs| => StoredSpot(firstId + k, docs[k]))
  }

  /** The spot ids of the inserted documents, in insertion order. */
  function Ids(stored: seq<StoredSpot>): (ids: seq<DocId>)
    ensures |ids| == |stored|
    ensures forall k :: 0 <= k < |stored| ==> ids[k] == stored[k].id
  {
    seq(|stored|, k requires 0 <= k < |stored| => stored[k].id)
  }

  /** The lot fields the script copies from a row: each count is its
      column read with `parseOrZero`. */
  predicate LotFromRow(lot: LotRecord, row: Row, lotId: string) {
    && lot.lotId == lotId
    && lot.lotName == LotName(row)
    && lot.location == "Main Campus West"
    && lot.baseRate == 0
    && lot.capacity == ParseOrZero(Cell(row, "Total # Spaces"))
    && lot.facultyStaff == ParseOrZero(Cell(row, "Faculty/Staff"))
    && lot.commuterPremium == ParseOrZero(Cell(row, "Commuter Premium"))
    && lot.metered == ParseOrZero(Cell(row, "Metered"))
    && lot.commuter == ParseOrZero(Cell(row, "Commuter"))
    && lot.resident == ParseOrZero(Cell(row, "Resident"))
    && lot.ada == ParseOrZero(Cell(row, "ADA"))
    && lot.reservedMisc == ParseOrZero(Cell(row, "Reserved/Misc."))
    && lot.stateVehiclesOnly == ParseOrZero(Cell(row, "State Vehicles Only"))
    && lot.specialServiceVehiclesOnly == ParseOrZero(Cell(row, "Special Service Vehicles Only"))
    && lot.stateAndSpecialServiceVehicles == ParseOrZero(Cell(row, "State and Special Service Vehicles"))
    && lot.evCharging == ParseOrZero(Cell(row, "EV Charging"))
  }

  /** `new ParkingLot({...})` for a row, saved as `docId`, with no spots yet. */
  function NewLot(docId: DocId, lotId: string, row: Row): (lot: LotRecord)
    ensures lot.docId == docId && lot.spots == []
    ensures LotFromRow(lot, row, lotId)
  {
    LotRecord(docId, lotId, LotName(row), "Main Campus West",
              ParseOrZero(Cell(row, "Total # Spaces")), 0,
              ParseOrZero(Cell(row, "Faculty/Staff")),
              ParseOrZero(Cell(row, "Commuter Premium")),
              ParseOrZero(Cell(row, "Metered")),
              ParseOrZero(Cell(row, "Commuter")),
              ParseOrZero(Cell(row, "Resident")),
              ParseOrZero(Cell(row, "ADA")),
              ParseOrZero(Cell(row, "Reserved/Misc.")),
              ParseOrZero(Cell(row, "State Vehicles Only")),
              ParseOrZero(Cell(row, "Special Service Vehicles Only")),
              ParseOrZero(Cell(row, "State and Special Service Vehicles")),
              ParseOrZero(Cell(row, "EV Charging")),
              [])
  }

  /** A row with every cell empty gives the schema's defaults: name `NA`,
      capacity and every count 0. */
  lemma BlankRowGivesDefaults(docId: DocId, lotId: string, row: Row)
    requires forall c :: c in row ==> row[c] == ""
    ensures var lot := NewLot(docId, lotId, row);
      && lot.lotName == "NA" && lot.capacity == 0 && lot.baseRate == 0
      && lot.facultyStaff == 0 && lot.commuterPremium == 0 && lot.metered == 0
      && lot.commuter == 0 && lot.resident == 0 && lot.ada == 0 && lot.reservedMisc == 0
      && lot.stateVehiclesOnly == 0 && lot.specialServiceVehiclesOnly == 0
      && lot.stateAndSpecialServiceVehicles == 0 && lot.evCharging == 0
  {
    assert "" == "" + "";
    ParseOrZeroWithoutDigits("", "");
  }

  /** The lot lists exactly its inserted spots, in order; each is spot
      number `k + 1` of the lot's prefix and points back at the lot. */
  predicate SpotsOfLot(s: SeededLot) {
    && |s.spots| == |s.lot.spots| == Max0(s.lot.capacity)
    && forall k :: 0 <= k < |s.spots| ==>
         && s.lot.spots[k] == s.spots[k].id
         && s.spots[k].doc == NewSpot(PrefixOf(s.lot.lotName), k + 1, s.lot.docId)
  }

  /** One iteration of the row loop: save the lot as `lotDocId`, generate
      and insert its spots, then point the lot at the inserted spot ids. */
  method SeedRow(row: Row, lotId: string, lotDocId: DocId, firstSpotId: DocId) returns (s: SeededLot)
    ensures s.lot.docId == lotDocId
    ensures LotFromRow(s.lot, row, lotId)
    ensures SpotsOfLot(s)
    ensures forall k :: 0 <= k < |s.spots| ==> s.spots[k].id == firstSpotId + k
  {
    var lot := NewLot(lotDocId, lotId, row);
    var prefix := PrefixOf(lot.lotName);
    var docs := GenerateSpots(prefix, lot.capacity, lotDocId);
    var inserted := InsertMany(docs, firstSpotId);
    lot := lot.(spots := Ids(inserted));
    forall k | 0 <= k < |inserted|
      ensures lot.spots[k] == inserted[k].id
      ensures inserted[k].doc == NewSpot(PrefixOf(lot.lotName), k + 1, lot.docId)
    {
    }
    s := SeededLot(lot, inserted);
  }

  /** The rows the script imports: the first 87, or all if fewer. */
  function ImportedCount(rows: seq<Row>): nat {
    if |rows| < MaxRows then |rows| else MaxRows
  }

  /** Lot `s` is what the loop saves for `row`. */
  predicate SeededFrom(s: SeededLot, row: Row, lotId: string) {
    LotFromRow(s.lot, row, lotId) && SpotsOfLot(s)
  }

  /** Appending the lot seeded from the next row keeps every lot seeded
      from its own row. */
  lemma AppendSeeded(lots: seq<SeededLot>, rows: seq<Row>, lotIdOf: nat -> string, s: SeededLot)
    requires |lots| < |rows|
    requires forall j :: 0 <= j < |lots| ==> SeededFrom(lots[j], rows[j], lotIdOf(j))
    requires SeededFrom(s, rows[|lots|], lotIdOf(|lots|))
    ensures var ls := lots + [s];
      forall j :: 0 <= j < |ls| ==> SeededFrom(ls[j], rows[j], lotIdOf(j))
  {
    var ls := lots + [s];
    forall j | 0 <= j < |ls| ensures SeededFrom(ls[j], rows[j], lotIdOf(j)) {
      if j < |lots| {
        assert ls[j] == lots[j];
      }
    }
  }

  /** Appending a lot saved after all earlier ones keeps the document ids
      increasing. */
  lemma AppendKeepsOrder(lots: seq<SeededLot>, next: DocId, s: SeededLot)
    requires forall j :: 0 <= j < |lots| ==> lots[j].lot.docId < next
    requires forall a, b :: 0 <= a < b < |lots| ==> lots[a].lot.docId < lots[b].lot.docId
    requires s.lot.docId == next
    ensures var ls := lots + [s];
      && (forall j :: 0 <= j < |ls| ==> ls[j].lot.docId <= next)
      && (forall a, b :: 0 <= a < b < |ls| ==> ls[a].lot.docId < ls[b].lot.docId)
  {
    var ls := lots + [s];
    forall j | 0 <= j < |ls| ensures ls[j].lot.docId <= next {
      if j < |lots| {
        assert ls[j] == lots[j];
      }
    }
    forall a, b | 0 <= a < b < |ls| ensures ls[a].lot.docId < ls[b].lot.docId {
      assert ls[a] == lots[a];
      if b < |lots| {
        assert ls[b] == lots[b];
      }
    }
  }

  /** The whole import. `lotIdOf(k)` stands for the random `lotId` of row
      `k`; document ids are handed out in save order from 0. */
  method Seed(rows: seq<Row>, lotIdOf: nat -> string) returns (lots: seq<SeededLot>)
    ensures |lots| == ImportedCount(rows)
    ensures forall k :: 0 <= k < |lots| ==> SeededFrom(lots[k], rows[k], lotIdOf(k))
    ensures forall a, b :: 0 <= a < b < |lots| ==> lots[a].lot.docId < lots[b].lot.docId
  {
    lots := [];
    var next: DocId := 0;
    var k := 0;
    while k < ImportedCount(rows)
      invariant 0 <= k <= ImportedCount(rows)
      invariant |lots| == k
      invariant forall j :: 0 <= j < k ==> SeededFrom(lots[j], rows[j], lotIdOf(j))
      invariant forall j :: 0 <= j < k ==> lots[j].lot.docId < next
      invariant forall a, b :: 0 <= a < b < k ==> lots[a].lot.docId < lots[b].lot.docId
    {
      var s := SeedRow(rows[k], lotIdOf(k), next, next + 1);
      AppendSeeded(lots, rows, lotIdOf, s);
      AppendKeepsOrder(lots, next, s);
      lots := lots + [s];
      next := next + 1 + |s.spots|;
      k := k + 1;
    }
  }
}

=== FILE: spotids.dfy ===
/** How the reservations page reads spot identifiers: the `lotId-spotNum`
    parse that pre-fills the create form, and the short badges shown for
    the spots of an event reservation. */
module SpotIds {
  import opened Optional
  import opened Text

  /** The spot information the page is navigated with (`location.state.spotInfo`):
      its `spotId`, its `_id` and its lot's `_id`, each possibly absent. */
  datatype SpotInfo = SpotInfo(spotId: Option<string>, id: Option<string>, lotId: Option<string>)

  /** The lot and spot the create form is filled with. */
  datatype Target = Target(lotId: string, spotId: string)

  /** Text before the first `-` (`s.split('-')[0]`). */
  function BeforeDash(s: string): (r: string)
    ensures '-' !in r
    ensures r <= s
    ensures '-' in s ==> r + "-" <= s
  {
    var parts := Split(s, '-');
    SplitJoin(s, '-');
    assert parts[0] <= Join(parts, '-');
    if |parts| > 1 then assert Join(parts, '-') == parts[0] + "-" + Join(parts[1..], '-'); parts[0]
    else parts[0]
  }

  /** The first effect of the page: a dashed spot id gives the lot as its
      text before the first dash and is kept whole; otherwise the lot is the
      lot's `_id` and the spot is `_id`, else `spotId`, else empty. */
  function ParseSpotInfo(info: SpotInfo): (t: Target)
    ensures Truthy(info.spotId) && '-' in info.spotId.value ==>
      t.spotId == info.spotId.value &&
      '-' !in t.lotId && t.lotId + "-" <= info.spotId.value
    ensures !(Truthy(info.spotId) && '-' in info.spotId.value) ==>
      t.lotId == (if Truthy(info.lotId) then info.lotId.value else "") &&
      t.spotId == (if Truthy(info.id) then info.id.value
                   else if Truthy(info.spotId) then info.spotId.value
                   else "")
  {
    if Truthy(info.spotId) && '-' in info.spotId.value then
      Target(BeforeDash(info.spotId.value), info.spotId.value)
    else
      Target(OrElse(info.lotId, ""), OrElse(info.id, OrElse(info.spotId, "")))
  }

  /** The dash-free prefix of a string is determined by it: any
      `lot + "-" + rest` with a dash-free `lot` parses back to `lot`. */
  lemma ParseRecoversLot(lot: string, rest: string)
    requires '-' !in lot
    ensures ParseSpotInfo(SpotInfo(Some(lot + "-" + rest), None, None)) ==
            Target(lot, lot + "-" + rest)
  {
    var s := lot + "-" + rest;
    assert s == lot + ("-" + rest);
    SplitAfterPiece(lot, "-" + rest, '-');
    assert Split("-" + rest, '-')[0] == "";
    assert lot + "" == lot;
    assert s[|lot|] == '-';
  }

  /** The form is only prefilled when spot information or a route parameter
      is present; the route parameter stands in for a missing `spotInfo`. */
  function FormTarget(spotInfo: Option<SpotInfo>, routeSpotId: Option<string>): (t: Option<Target>)
    ensures t.None? <==> spotInfo.None? && !Truthy(routeSpotId)
    ensures spotInfo.Some? ==> t == Some(ParseSpotInfo(spotInfo.value))
    ensures spotInfo.None? && Truthy(routeSpotId) ==>
      t == Some(ParseSpotInfo(SpotInfo(routeSpotId, None, None)))
  {
    if spotInfo.Some? then Some(ParseSpotInfo(spotInfo.value))
    else if Truthy(routeSpotId) then Some(ParseSpotInfo(SpotInfo(routeSpotId, None, None)))
    else None
  }

  /** A spot of an event reservation: a bare id string, or a populated
      document whose `spotId` may be absent. */
  datatype SpotRef = SpotKey(key: string) | SpotDoc(spotId: Option<string>)

  /** `id.split('-')[1] || id.substring(0, 8)`. */
  function BadgeOfId(id: string): (b: string)
    ensures var parts := Split(id, '-');
      if |parts| > 1 && parts[1] != "" then b == parts[1] && '-' !in b
      else b == Prefix(id, 8)
  {
    var parts := Split(id, '-');
    SplitJoin(id, '-');
    if |parts| > 1 && parts[1] != "" then parts[1] else Prefix(id, 8)
  }

  /** The badge of the spot at position `idx` in the list. */
  function Badge(spot: SpotRef, idx: nat): (b: string)
    ensures spot.SpotKey? ==> b == BadgeOfId(spot.key)
    ensures spot.SpotDoc? && Truthy(spot.spotId) ==> b == BadgeOfId(spot.spotId.value)
    ensures spot.SpotDoc? && !Truthy(spot.spotId) ==> b == "Spot " + Decimal(idx + 1)
  {
    match spot
    case SpotKey(key) => BadgeOfId(key)
    case SpotDoc(spotId) =>
      if Truthy(spotId) then BadgeOfId(spotId.value) else "Spot " + Decimal(idx + 1)
  }

  /** At most five badges are shown, in list order. */
  const MaxBadges: nat := 5

  function SpotBadges(spots: seq<SpotRef>): (bs: seq<string>)
    ensures |bs| == if |spots| < MaxBadges then |spots| else MaxBadges
    ensures forall i :: 0 <= i < |bs| ==> bs[i] == Badge(spots[i], i)
  {
    var n := if |spots| < MaxBadges then |spots| else MaxBadges;
    seq(n, i requires 0 <= i < n => Badge(spots[i], i))
  }

  /** The `+N more` badge for the spots that were not shown. */
  function MoreBadge(spots: seq<SpotRef>): (m: Option<string>)
    ensures m.Some? <==> |spots| > MaxBadges
    ensures m.Some? ==> m.value == "+" + Decimal(|spots| - MaxBadges) + " more"
  {
    if |spots| > MaxBadges then Some("+" + Decimal(|spots| - MaxBadges) + " more") else None
  }

  /** Every spot of the list is accounted for: shown as a badge, or counted
      in the `+N more` badge. */
  lemma BadgesAccountForAllSpots(spots: seq<SpotRef>)
    ensures |SpotBadges(spots)| + (if MoreBadge(spots).Some? then |spots| - MaxBadges else 0) == |spots|
  {
  }
}

/** `formatLocalDateTimeInput`: the `min` value of the start-time input. */
module DateInput {
  import opened Text

  /** The local-time fields a `Date` reports (`getMonth` is zero-based). */
  datatype LocalDateTime = LocalDateTime(year: int, month: int, day: int, hours: int, minutes: int)

  /** The ranges the `Date` getters report. */
  predicate InRange(d: LocalDateTime) {
    0 <= d.month <= 11 && 1 <= d.day <= 31 && 0 <= d.hours <= 23 && 0 <= d.minutes <= 59
  }

  /** `n.toString().padStart(2, '0')`, written out digit by digit for the
      values the getters report; `PadIsPadStart` ties it to `PadStart`. */
  function Pad(n: nat): (r: string)
    ensures n < 100 ==> |r| == 2
    ensures AllDigits(r) && DigitsValue(r) == n
  {
    if n < 100 then
      var r := [DigitChar(n / 10), DigitChar(n % 10)];
      assert r[..1] == [DigitChar(n / 10)] && r[..1][..0] == [];
      assert DigitsValue(r[..1]) == n / 10;
      r
    else
      DecimalValue(n);
      Decimal(n)
  }

  /** `Pad` is the padding of the decimal text to width two with zeros. */
  lemma PadIsPadStart(n: nat)
    ensures Pad(n) == PadStart(Decimal(n), 2, '0')
  {
    if n < 10 {
      assert Decimal(n) == [DigitChar(n)];
      assert PadStart(Decimal(n), 2, '0') == Repeat('0', 1) + [DigitChar(n)];
    } else if n < 100 {
      assert Decimal(n / 10) == [DigitChar(n / 10)];
    } else {
      assert Decimal(n / 10)[0] != '0';
      assert |Decimal(n / 10)| >= 1;
    }
  }

  /** Two-digit fields are told apart by their text. */
  lemma PadInjective(a: nat, b: nat)
    requires a < 100 && b < 100
    requires Pad(a) == Pad(b)
    ensures a == b
  {
  }

  /** The text at `i..i+2` is the padded field `v`. */
  predicate FieldIs(r: string, i: nat, v: nat) {
    i + 2 <= |r| && r[i..i + 2] == Pad(v)
  }

  /** A field reads back, as decimal digits, to the number it was written from. */
  lemma FieldValue(r: string, i: nat, v: nat)
    requires v < 100 && FieldIs(r, i, v)
    ensures AllDigits(r[i..i + 2]) && DigitsValue(r[i..i + 2]) == v
  {
  }

  lemma ShiftField(a: string, t: string, i: nat, j: nat, v: nat)
    requires FieldIs(t, i, v)
    requires j == |a| + i
    ensures FieldIs(a + t, j, v)
  {
    assert (a + t)[j..j + 2] == t[i..i + 2];
  }

  /** The fixed-width part after the year: `-MM-DDTHH:mm` from four
      two-character fields. */
  function DateTail(mo: string, dd: string, hh: string, mi: string): (t: string)
    requires |mo| == 2 && |dd| == 2 && |hh| == 2 && |mi| == 2
    ensures |t| == 12
    ensures t[0] == '-' && t[3] == '-' && t[6] == 'T' && t[9] == ':'
    ensures t[1..3] == mo && t[4..6] == dd && t[7..9] == hh && t[10..12] == mi
  {
    "-" + mo + "-" + dd + "T" + hh + ":" + mi
  }

  /** `YYYY-MM-DDTHH:mm`, the year unpadded as `getFullYear() + '-'` gives it. */
  function FormatLocalDateTimeInput(d: LocalDateTime): (r: string)
    requires InRange(d)
    ensures var y := |IntText(d.year)|;
      && |r| == y + 12
      && r[..y] == IntText(d.year)
      && r[y] == '-' && r[y + 3] == '-' && r[y + 6] == 'T' && r[y + 9] == ':'
      && FieldIs(r, y + 1, d.month + 1)
      && FieldIs(r, y + 4, d.day)
      && FieldIs(r, y + 7, d.hours)
      && FieldIs(r, y + 10, d.minutes)
  {
    var year := IntText(d.year);
    var tail := DateTail(Pad(d.month + 1), Pad(d.day), Pad(d.hours), Pad(d.minutes));
    var y := |year|;
    ShiftField(year, tail, 1, y + 1, d.month + 1);
    ShiftField(year, tail, 4, y + 4, d.day);
    ShiftField(year, tail, 7, y + 7, d.hours);
    ShiftField(year, tail, 10, y + 10, d.minutes);
    year + tail
  }

  /** Different instants (to the minute) format to different texts. */
  lemma FormatInjective(a: LocalDateTime, b: LocalDateTime)
    requires InRange(a) && InRange(b)
    requires a.year == b.year
    requires FormatLocalDateTimeInput(a) == FormatLocalDateTimeInput(b)
    ensures a == b
  {
    var r, y := FormatLocalDateTimeInput(a), |IntText(a.year)|;
    PadInjective(a.month + 1, b.month + 1);
    PadInjective(a.day, b.day);
    PadInjective(a.hours, b.hours);
    PadInjective(a.minutes, b.minutes);
  }
}

=== FILE: status.dfy ===
/** Instants in milliseconds, and JavaScript's comparison of `Date` objects. */
module Instants {

  /** A parsed `Date`: a time value, or the invalid date whose time value is NaN. */
  datatype Instant = At(ms: int) | InvalidDate

  /** `a < b` on Dates: false as soon as either side is NaN. */
  predicate Before(a: Instant, b: Instant) {
    a.At? && b.At? && a.ms < b.ms
  }

  /** `a <= b` on Dates: false as soon as either side is NaN. */
  predicate NotAfter(a: Instant, b: Instant) {
    a.At? && b.At? && a.ms <= b.ms
  }

  /** With NaN on one side, every relational comparison is false, so
      neither `a < b` nor `a >= b` holds. */
  lemma InvalidComparesFalse(a: Instant, b: Instant)
    requires a.InvalidDate? || b.InvalidDate?
    ensures !Before(a, b) && !NotAfter(b, a) && !Before(b, a) && !NotAfter(a, b)
  {
  }
}

/** The display status a reservation card shows: the stored status
    combined with the current time (`getReservationStatus`). */
module ReservationStatus {
  import opened Instants

  datatype Display = Pending | Active | Approved | Completed | Cancelled | Rejected

  /** The lower-case label the page compares against and uses as CSS suffix. */
  function Label(d: Display): string {
    match d
    case Pending => "pending"
    case Active => "active"
    case Approved => "approved"
    case Completed => "completed"
    case Cancelled => "cancelled"
    case Rejected => "rejected"
  }

  /** Stored statuses that the page shows verbatim whatever the time. */
  predicate IsVerdict(stored: string) {
    stored == "cancelled" || stored == "rejected" || stored == "approved"
  }

  /** Reference reading of the time window, written case by case on which
      of the two Dates are valid: before a valid start is pending, from the
      start up to and including a valid end is active, everything else
      (past the end, or a NaN start) is completed. */
  function ByTime(start: Instant, end: Instant, now: int): Display {
    match start
    case InvalidDate => Completed
    case At(s) =>
      if now < s then Pending
      else match end
        case InvalidDate => Completed
        case At(e) => if now <= e then Active else Completed
  }

  /** `getReservationStatus(reservation)` evaluated at time `now`. */
  function Derive(stored: string, start: Instant, end: Instant, now: int): (d: Display)
    ensures d == Cancelled <==> stored == "cancelled"
    ensures d == Rejected <==> stored == "rejected"
    ensures d == Approved <==> stored == "approved"
    ensures !IsVerdict(stored) ==> d == ByTime(start, end, now)
  {
    var t := At(now);
    if stored == "cancelled" then Cancelled
    else if stored == "rejected" then Rejected
    else if stored == "approved" then Approved
    else if stored == "pending" && Before(t, start) then Pending
    else if Before(t, start) then Pending
    else if NotAfter(start, t) && NotAfter(t, end) then Active
    else Completed
  }

  /** The page only ever shows one of its six labels. */
  lemma LabelsDistinct(a: Display, b: Display)
    ensures Label(a) == Label(b) <==> a == b
  {
  }

  /** An approved reservation stays approved at every instant: the page
      never promotes it to active or completed. */
  lemma ApprovedIsTimeless(start: Instant, end: Instant, now1: int, now2: int)
    ensures Derive("approved", start, end, now1) == Derive("approved", start, end, now2) == Approved
  {
  }

  /** The separate `pending && startTime > now` test changes nothing: a
      stored `pending` is read by time exactly like an unknown status. */
  lemma PendingReadByTime(other: string, start: Instant, end: Instant, now: int)
    requires !IsVerdict(other)
    ensures Derive("pending", start, end, now) == Derive(other, start, end, now)
  {
  }

  /** The active window is closed at both ends: a reservation is active at
      its start instant and still active at its end instant. */
  lemma ActiveWindowClosed(stored: string, s: int, e: int)
    requires !IsVerdict(stored)
    requires s <= e
    ensures Derive(stored, At(s), At(e), s) == Active
    ensures Derive(stored, At(s), At(e), e) == Active
    ensures Derive(stored, At(s), At(e), s - 1) == Pending
    ensures Derive(stored, At(s), At(e), e + 1) == Completed
  {
  }

  /** Rank of a time-derived status along the timeline. */
  function Stage(d: Display): nat {
    match d
    case Pending => 0
    case Active => 1
    case _ => 2
  }

  /** For a non-verdict stored status the derived status only moves
      forward as time passes: pending, then active, then completed. */
  lemma TimeOnlyMovesForward(stored: string, start: Instant, end: Instant, now1: int, now2: int)
    requires !IsVerdict(stored)
    requires now1 <= now2
    ensures Stage(Derive(stored, start, end, now1)) <= Stage(Derive(stored, start, end, now2))
  {
  }

  /** Pending as a display status always means the start is a valid
      instant still in the future. */
  lemma PendingMeansNotStarted(stored: string, start: Instant, end: Instant, now: int)
    requires Derive(stored, start, end, now) == Pending
    ensures start.At? && now < start.ms
  {
  }
}

=== FILE: text.dfy ===
/** Optional values: a JavaScript property that may be absent. */
module Optional {

  datatype Option<+T> = None | Some(value: T)

  /** JavaScript truthiness of an optional string: absent and "" are falsy. */
  predicate Truthy(o: Option<string>) {
    o.Some? && o.value != ""
  }

  /** `a || b` over optional strings, as the source uses it for fallbacks. */
  function OrElse(a: Option<string>, b: string): (r: string)
    ensures Truthy(a) ==> r == a.value
    ensures !Truthy(a) ==> r == b
  {
    if Truthy(a) then a.value else b
  }
}

/** String helpers shared by the page and the seeding script: decimal
    rendering (`Number.prototype.toString`), `padStart`, and `split` on a
    one-character separator, each with the property that makes it invertible. */
module Text {

  predicate IsDigit(c: char) {
    '0' <= c <= '9'
  }

  predicate AllDigits(s: string) {
    forall i :: 0 <= i < |s| ==> IsDigit(s[i])
  }

  function DigitChar(d: nat): (c: char)
    requires d < 10
    ensures IsDigit(c)
  {
    ('0' as int + d) as char
  }

  function DigitValue(c: char): (d: nat)
    requires IsDigit(c)
    ensures d < 10
  {
    c as int - '0' as int
  }

  /** The number a string of decimal digits denotes (leading zeros allowed). */
  function DigitsValue(s: string): nat
    requires AllDigits(s)
  {
    if |s| == 0 then 0 else 10 * DigitsValue(s[..|s| - 1]) + DigitValue(s[|s| - 1])
  }

  /** Decimal rendering of a non-negative integer: no sign, no leading zero. */
  function Decimal(n: nat): (s: string)
    ensures 1 <= |s|
    ensures AllDigits(s)
    ensures s[0] == '0' <==> n == 0
    decreases n
  {
    if n < 10 then [DigitChar(n)] else Decimal(n / 10) + [DigitChar(n % 10)]
  }

  /** `String(n)` for an integer-valued JavaScript number. */
  function IntText(n: int): (s: string)
    ensures 1 <= |s|
    ensures n >= 0 ==> AllDigits(s)
    ensures n < 0 ==> s[0] == '-' && AllDigits(s[1..])
  {
    if n < 0 then "-" + Decimal(-n) else Decimal(n)
  }

  lemma {:induction false} DecimalValue(n: nat)
    ensures DigitsValue(Decimal(n)) == n
    decreases n
  {
    if n >= 10 {
      var s := Decimal(n);
      assert s[..|s| - 1] == Decimal(n / 10);
      DecimalValue(n / 10);
    }
  }

  function Repeat(c: char, k: nat): (s: string)
    ensures |s| == k
    ensures forall i :: 0 <= i < k ==> s[i] == c
  {
    if k == 0 then [] else Repeat(c, k - 1) + [c]
  }

  /** `s.padStart(width, fill)`: prepend copies of `fill` up to `width`. */
  function PadStart(s: string, width: nat, fill: char): (r: string)
    ensures |r| == if |s| >= width then |s| else width
    ensures r[|r| - |s|..] == s
    ensures forall i :: 0 <= i < |r| - |s| ==> r[i] == fill
  {
    if |s| >= width then s else Repeat(fill, width - |s|) + s
  }

  lemma {:induction false} ZerosValue(k: nat)
    ensures AllDigits(Repeat('0', k))
    ensures DigitsValue(Repeat('0', k)) == 0
  {
    if k > 0 {
      assert Repeat('0', k)[..k - 1] == Repeat('0', k - 1);
      ZerosValue(k - 1);
    }
  }

  /** Leading zeros do not change the value a digit string denotes. */
  lemma {:induction false} LeadingZerosValue(k: nat, s: string)
    requires AllDigits(s)
    ensures AllDigits(Repeat('0', k) + s)
    ensures DigitsValue(Repeat('0', k) + s) == DigitsValue(s)
    decreases |s|
  {
    var z := Repeat('0', k) + s;
    ZerosValue(k);
    assert AllDigits(z);
    if |s| == 0 {
      assert z == Repeat('0', k);
    } else {
      var s' := s[..|s| - 1];
      assert z[..|z| - 1] == Repeat('0', k) + s';
      assert z[|z| - 1] == s[|s| - 1];
      LeadingZerosValue(k, s');
    }
  }

  /** Zero-padding a decimal rendering keeps its value, so it is injective. */
  lemma ZeroPaddedValue(n: nat, width: nat)
    ensures AllDigits(PadStart(Decimal(n), width, '0'))
    ensures DigitsValue(PadStart(Decimal(n), width, '0')) == n
  {
    var d := Decimal(n);
    DecimalValue(n);
    if |d| < width {
      LeadingZerosValue(width - |d|, d);
    }
  }

  /** `s.split(sep)` for a one-character separator. */
  function Split(s: string, sep: char): (parts: seq<string>)
    ensures 1 <= |parts|
    decreases |s|
  {
    if |s| == 0 then [""]
    else
      var rest := Split(s[1..], sep);
      if s[0] == sep then [""] + rest
      else [[s[0]] + rest[0]] + rest[1..]
  }

  /** `parts.join(sep)`. */
  function Join(parts: seq<string>, sep: char): string
  {
    if |parts| == 0 then ""
    else if |parts| == 1 then parts[0]
    else parts[0] + [sep] + Join(parts[1..], sep)
  }

  lemma {:induction false} SplitJoin(s: string, sep: char)
    ensures Join(Split(s, sep), sep) == s
    ensures forall i :: 0 <= i < |Split(s, sep)| ==> sep !in Split(s, sep)[i]
    decreases |s|
  {
    if |s| > 0 {
      SplitJoin(s[1..], sep);
      var rest := Split(s[1..], sep);
      if s[0] == sep {
        assert s == [sep] + s[1..];
      } else {
        var parts := Split(s, sep);
        if |rest| == 1 {
          assert parts == [[s[0]] + rest[0]];
        } else {
          assert parts[1..] == rest[1..];
          assert Join(parts, sep) == [s[0]] + (rest[0] + [sep] + Join(rest[1..], sep));
        }
        assert s == [s[0]] + s[1..];
      }
    }
  }

  /** Splitting a string that begins with a separator-free piece. */
  lemma {:induction false} SplitAfterPiece(p: string, t: string, sep: char)
    requires sep !in p
    ensures Split(p + t, sep) == [p + Split(t, sep)[0]] + Split(t, sep)[1..]
    decreases |p|
  {
    if |p| > 0 {
      assert (p + t)[1..] == p[1..] + t;
      SplitAfterPiece(p[1..], t, sep);
      var parts := Split(t, sep);
      var rest := Split(p[1..] + t, sep);
      assert p[0] != sep;
      assert rest[0] == p[1..] + parts[0];
      assert rest[1..] == parts[1..];
      assert [p[0]] + rest[0] == p + parts[0];
    } else {
      var parts := Split(t, sep);
      assert p + t == t;
      assert p + parts[0] == parts[0];
      assert parts == [parts[0]] + parts[1..];
    }
  }

  /** `split` inverts `join` when no piece contains the separator. */
  lemma {:induction false} JoinSplit(parts: seq<string>, sep: char)
    requires 1 <= |parts|
    requires forall i :: 0 <= i < |parts| ==> sep !in parts[i]
    ensures Split(Join(parts, sep), sep) == parts
    decreases |parts|
  {
    if |parts| == 1 {
      SplitAfterPiece(parts[0], "", sep);
      assert parts[0] + "" == parts[0];
    } else {
      var tail := Join(parts[1..], sep);
      JoinSplit(parts[1..], sep);
      assert Split([sep] + tail, sep) == [""] + parts[1..];
      assert Join(parts, sep) == parts[0] + ([sep] + tail);
      SplitAfterPiece(parts[0], [sep] + tail, sep);
      assert parts[0] + "" == parts[0];
      assert parts == [parts[0]] + parts[1..];
    }
  }

  /** `s.substring(0, n)`. */
  function Prefix(s: string, n: nat): (r: string)
    ensures |r| == if |s| < n then |s| else n
    ensures r <= s
  {
    if |s| < n then s else s[..n]
  }
}
